=== FILE: README.md ===
# bitcask-rs core in Dafny

This project models the storage core of the Rust Bitcask engine
`bitcask-rs` and proves properties of the model. Bitcask is a log-structured
key/value store with three parts:
- append-only segment files that hold framed records;
- an in-memory ordered index that maps each key to the handle
  (segment id, offset, length) of its latest record;
- a write path that appends a whole batch before it publishes the new
  handles to the index.

The project has seven files:

- `types.dfy`: the machine integer types and `Option`. Also the outcome of a fallible
  operation: `Err(IoError)` is the crate's `Err(DBError)`, and `Err(Panic)`
  stands for an `assert!`, `expect`, `todo!()` or `panic!` that aborts the
  Rust code.
- `bigendian.dfy`: `to_be_bytes` / `from_be_bytes`, with the two round trips.
- `model.dfy`: the entry codec. It covers `OpType` and `OpType::from`, and the record shared by
  `OwnedEntry` and `RefEntry`. It also covers `encode_to_bytes` (the frame
  `crc(4) | ts(8) | keysz(4) | valsz(4) | key | op(1) | value`) and
  `decode_from_bytes`, with the round trip and how decoding behaves on torn
  frames and trailing bytes.
- `dbfile.dfy`: the segment file `LogFile` as a class over its byte content
  and its write offset.
  - `write_entry` keeps the source's short-write loop (`WriteFrame`).
  - Each call of the operating system's `write_at` is an oracle step. Its outcomes are given as a script
    (`seq<WriteOutcome>`). `Transferred` is the specification function of
    the loop.
  - A script is *cooperative* (`Cooperative`) when every outcome in it is
    `Interrupted` or a write of at least one byte. This is a condition on
    the whole script, including outcomes no call reaches.
  - `read_entry` decodes the bytes a handle covers.
- `writebatch.dfy`: `WriteBatch` with `new`, `put`, `delete` and the
  fail-fast `consume_by`.
- `db.dfy`: `BitcaskCore` (mutable segment, immutable segments, index) and
  `BitcaskDB` with `open`, `write`, `put`, `delete` and `get`.
  - `View()` is what every indexed key reads as. It is defined only while the
    index is `Sound()`: every handle names a held segment and decodes to a
    record for its key.
  - On failure, `write` leaves the index and the view as they were.
  - On success under a cooperative script, `write` keeps the index sound and
    changes the view exactly as applying the batch in order does (the last
    record for a key wins). For any other script nothing is stated about the
    view; a zero-byte `write_at` that the loop does reach leaves a torn frame
    behind a handle that `write` still publishes, and the index is no longer
    sound.
- `versionset.dfy`: the file-id allocator `new_logfile_id`, the stubs
  `recovery` and `log_and_apply`, and the `Version`/`VersionEdit` records.

Points where the code behaves in a way worth spelling out, each modelled as
written:
- Every decoding failure is a panic, never an `Err`.
- Decoding does not require the frame to be exactly `21 + keysz + valsz`
  bytes; a Put takes every byte after the op byte as its value.
- The checksum is never computed or verified.
- A short read reaches `todo!()`.
- A failed sync is returned to the caller, and `bg_error` is never set.
- A zero-byte `write_at` ends the write loop, and the handle covers only the
  bytes written.
- `write` with no mutable segment, or with one at the target size, reaches
  `todo!()` instead of rotating. `open` creates no segment, so a put on a
  freshly opened database panics.
- The key and value bound asserted by `encode_to_bytes` is `2 ^ 32`, which
  in Rust is exclusive or, i.e. 34 bytes.

## Model

| member | source | states |
|---|---|---|
| BigEndian.ToBE | src/model.rs:94-95 | the big-endian representation of a number below 256^w has exactly w bytes |
| BigEndian.FromBE | src/model.rs:59-60 | the number read from w big-endian bytes is below 256^w, so four bytes always give a u32 |
| BigEndian.FromToBE | src/model.rs:57-60 | reading back the representation of n gives n |
| BigEndian.ToFromBE | src/model.rs:57-60 | every byte sequence is the representation of the number read from it |
| Model.OpByte | src/model.rs:112 | the tag of Put is 0 and of Del is 1; `OpType::from` maps each tag back to its operation |
| Model.OpFromByte | src/model.rs:12-19 | `OpType::from` succeeds exactly on bytes 0 and 1 and panics on any other byte |
| Model.Encode | src/model.rs:81-119 | the frame is 21 + key length + value length bytes: four zero checksum bytes, the big-endian timestamp (0 when absent), the big-endian key and value lengths, the key, the op tag, then the value bytes |
| Model.Decode | src/model.rs:52-76 | every decoding failure is a panic; a decoded record has a timestamp, has a value exactly when it is a Put, and fits in the bytes it came from |
| Model.DecodeCases | src/model.rs:52-76 | exactly which byte strings decode: longer than the header, the u32 sum `20 + keysz + valsz + 1` not overflowing and not beyond the input, and an op byte of 0, or of 1 with valsz 0; the key, the timestamp and a Put's value are then read straight from their fields, a Put's value running to the end of the input |
| Model.HeaderOfEncode | src/model.rs:57-60 | the timestamp and length fields of an encoded frame decode to the timestamp (0 when absent) and the lengths written |
| Model.DecodeEncodeTrailing | src/model.rs:67-73 | decoding a frame followed by extra bytes gives the record's canonical form (as in `DecodeEncode`: the timestamp made present, a Put's value made present), except that a Put absorbs the extra bytes into its value |
| Model.DecodeEncode | src/model.rs:52-76 | round trip: decoding the frame of a record gives the record with its timestamp made present (0 when absent) and a Put's value made present |
| Model.DecodeEncodeExact | src/model.rs:57 | the round trip gives back exactly the record if and only if the record has a timestamp and a Put has a value |
| Model.DecodeIgnoresChecksum | src/model.rs:56 | replacing the four checksum bytes never changes what decodes |
| Model.DecodeTornFrame | src/model.rs:61 | every strict prefix of a frame panics when decoded |
| DbFile.Transferred | src/dbfile.rs:46-57 | the write loop writes at most what remains, and a failure leaves part of the frame unwritten |
| DbFile.NextOutcome | src/dbfile.rs:47 | one call of `write_at` never reports more bytes than the buffer holds |
| DbFile.TransferredStep | src/dbfile.rs:47-56 | one call of `write_at` inside the loop: an interrupted call is retried, a failure ends the loop with an error, a zero-byte write ends it early, and any other call advances it |
| DbFile.TransferredCooperative | src/dbfile.rs:46-57 | when every outcome in the script is `Interrupted` or a write of at least one byte, the loop writes the whole buffer, does not fail, and leaves a script of the same kind |
| DbFile.WriteAt | src/dbfile.rs:47 | writing at a position inside the file keeps the file length or extends it to the end of the write |
| DbFile.WriteAtContents | src/dbfile.rs:47 | a positioned write keeps the bytes before it and puts its own bytes in place |
| DbFile.WriteAtConcat | src/dbfile.rs:55-56 | two writes back to back are one write of the concatenated bytes |
| DbFile.WriteAtExtend | src/dbfile.rs:55-56 | writing the next k bytes of the frame after the first ones extends the written prefix of the frame |
| DbFile.FrameStep | src/dbfile.rs:47-56 | each call of `write_at` preserves the loop invariant (`FrameProgress`: the bytes written so far are the frame's prefix at the origin), or ends the loop the way `Transferred` says |
| DbFile.FrameDone | src/dbfile.rs:46-57 | a loop that has written the whole buffer has done what `Transferred` says, without failure |
| DbFile.FrameAdvance | src/dbfile.rs:55-56 | a write of n > 0 bytes advances the written prefix and the offset by n |
| DbFile.EntryWrite | src/dbfile.rs:38-63 | what `write_entry` does to a segment's bytes and offset: a rejected record changes nothing; otherwise the offset moves past every byte written, and a returned handle starts at the old offset and covers exactly those bytes |
| DbFile.EntryWriteKeeps | src/dbfile.rs:38-63 | an append keeps the bytes below the old offset, and only a record `encode_to_bytes` accepts is appended |
| DbFile.EntryWriteCooperative | src/dbfile.rs:38-63 | under a cooperative script (every outcome `Interrupted` or a write of at least one byte), an encodable record is appended whole and its handle covers exactly its frame |
| DbFile.ReadAtPrefix | src/dbfile.rs:65-77 | a read of a handle below byte n depends only on the first n bytes of the segment |
| DbFile.LogFile.constructor | src/dbfile.rs:22-28 | a new segment has the given id and its write offset at 0 |
| DbFile.LogFile.OsWriteAt | src/dbfile.rs:47 | one call of the operating system's `write_at`: the reported outcome, and the bytes it put at the position |
| DbFile.LogFile.WriteFrame | src/dbfile.rs:43-57 | the short-write loop advances the offset by exactly the bytes written, the file holds those bytes at the old offset, and failure and the script left over are those of `Transferred` |
| DbFile.LogFile.WriteEntry | src/dbfile.rs:38-63 | the handle has the segment's id, starts at the old offset and covers exactly the bytes written (offset growth); a failed write returns the error with the offset already moved; bytes below the old offset are kept; its new bytes, offset, result and leftover script are those of `EntryWrite`; with a cooperative script the handle covers the whole frame, and reading it back gives `Ok(Canonical(e))`: the record with its timestamp made present and a Put's value made present |
| DbFile.LogFile.ReadEntry | src/dbfile.rs:65-77 | `read_entry`, through the pure `ReadAt` on the segment's id and bytes: a handle of another segment panics; a successful read requires no OS error and a handle inside the file, and is the decoding of the bytes the handle covers |
| Batch.WriteBatch.constructor | src/writebatch.rs:11-13 | a new batch is empty |
| Batch.WriteBatch.Put | src/writebatch.rs:15-22 | appends one Put record with the key, the value and timestamp 0, keeping earlier records |
| Batch.WriteBatch.Delete | src/writebatch.rs:24-31 | appends one Del record with the key, no value and timestamp 0, keeping earlier records |
| Batch.WriteBatch.ConsumeBy | src/writebatch.rs:33-45 | succeeds exactly when `f` succeeds on every record, then with one output per record in order; otherwise returns the error of the first record on which `f` fails |
| Db.AssignLastWins | src/db.rs:84-86 | inserting pairs in order: the last value for a key wins, keys not inserted keep their entries, no other key appears |
| Db.ApplyBatchLastWins | src/db.rs:84-86 | after a batch, the key set is the old keys plus the batch's keys, the last record for a key decides what it reads as, and a key the batch does not mention reads as before |
| Db.UpsertKeys | src/db.rs:84-86 | after upserting the handles, the index holds exactly the old keys and the batch's keys, and a key the batch does not mention keeps its handle |
| Db.ApplySingle | src/db.rs:47-57 | a one-record batch sets what its key reads as and nothing else |
| Db.LastIndex | src/db.rs:84-86 | the position of the last occurrence of a key among the inserted keys |
| Db.AppendSpec | src/db.rs:72-77 | what appending a batch does: the records are written in order as `write_entry` writes them, the first failed append ends the batch with its error, and the offset never moves back |
| Db.AppendSpecShape | src/db.rs:72-77 | on success there is one pair per record, in order, with the record's key and a handle into the segment; the handles lie back to back from the old offset to the new one |
| Db.AppendSpecKeeps | src/db.rs:72-77 | appending a batch keeps the bytes below the offset it starts at |
| Db.AppendCooperative | src/db.rs:72-77 | under a cooperative script, when every record is encodable, the batch is appended whole: the offset moves by the sum of the frame lengths and each handle covers its record's frame |
| Db.AppendStops | src/db.rs:72-77 | a failed batch failed at one record: the records before it were appended, that record was rejected or its write failed partway, and no later record was written |
| Db.ContiguousCons | src/db.rs:72-77 | a handle that ends where a run of back-to-back handles starts extends the run at the front |
| Db.ShapeCons | src/db.rs:72-77 | the pair of the first record, put in front of the pairs of the rest, gives the pairs of the whole batch |
| Db.FramedCons | src/db.rs:72-77 | the first record's frame, kept by the later appends, in front of the later frames gives the frames of the whole batch |
| Db.AppendAll | src/db.rs:72-77 | `consume_by` with `write_entry` as the step: the segment's new bytes and offset, the result and the leftover script are exactly those of `AppendSpec` |
| Db.ValidBatchEncodable | src/writebatch.rs:15-31 | a batch built by `put` and `delete` with keys and values under the bound passes `encode_to_bytes` record by record |
| Db.SingleAppend | src/db.rs:47-57 | a one-record batch: its frames are its one frame, and upserting its one pair inserts the record's key |
| Db.AppendKeepsValid | src/db.rs:72-77 | appending to the mutable segment keeps the core well formed |
| Db.AppendKeepsHandles | src/db.rs:72-77 | appending keeps every indexed handle sound and reading the same record |
| Db.AppendKeepsView | src/db.rs:72-77 | appending keeps the index sound and what every key reads as |
| Db.SegmentsUnchanged | src/db.rs:84-86 | while no segment changes, every sound index stays sound and reads as it did |
| Db.CoreUnchanged | src/db.rs:48-49 | building a batch changes nothing the core reads |
| Db.BitcaskCore.constructor | src/db.rs:27-35 | a fresh core holds no mutable segment, no immutable segments and an empty index |
| Db.BitcaskCore.Resolve | src/db.rs:98-110 | a handle resolves to the mutable segment when the ids match, else to the immutable segment with that id, and to nothing exactly when neither holds it |
| Db.BitcaskCore.InsertEach | src/db.rs:84-86 | the index afterwards is the old one with every pair inserted in order |
| Db.BitcaskCore.InsertAll | src/db.rs:84-86 | the index ends as the old one with every pair inserted in order; when the pairs read back a batch's records, the index stays sound and its view is the old view with the batch applied |
| Db.BitcaskCore.ViewOfUpsertAt | src/db.rs:84-86 | for one key, upserting handles that read back the batch's records gives the same presence and value as applying the batch |
| Db.BitcaskCore.ViewOfUpsert | src/db.rs:84-86 | upserting handles that read back a batch's records keeps the index sound and changes the view exactly as applying the batch does |
| Db.BitcaskCore.AppendedReads | src/db.rs:72-77 | handles into the mutable segment whose bytes are the frames of the batch's records are sound and read back what those records show |
| Db.BitcaskCore.Append | src/db.rs:72-77 | the segment changes exactly as `AppendSpec` says; appending the batch leaves the index sound and reading as before; success implies every record passed `encode_to_bytes`, one pair per record with its key; with a cooperative script and every record passing `encode_to_bytes` the appends succeed, and on success under a cooperative script the new handles read back the records |
| Db.BitcaskDB.Open | src/db.rs:39-45 | a freshly opened database has no mutable segment, no immutable segments and an empty index, so its view is empty and every get returns `Ok(None)` |
| Db.BitcaskDB.Get | src/db.rs:90-117 | a key not in the index reads as absent; a handle with the invalid id, or naming no segment the core holds, panics; a read error is returned; on a sound index without read errors, get returns the key's value, or absent for a tombstone |
| Db.BitcaskDB.Write | src/db.rs:59-88 | no mutable segment, or one at the target size, panics and changes nothing; otherwise the segment's new bytes and offset and the leftover script are those of appending the batch (`AppendSpec`), an append error is returned as is, then a failed sync returns `Err(IoError)`, and only on success is the index upserted with the new handles; the offset never moves back; on failure the index and the view are unchanged; on success the index has the old keys plus the batch's keys, a key outside the batch keeps its handle, and with a cooperative script the offset moves by the batch's frame lengths and the view is the old view with the batch applied in order; the write succeeds when the segment is below the target size, every record is encodable, the script is cooperative and the sync (if asked for) succeeds |
| Db.BitcaskDB.Put | src/db.rs:47-51 | a write of a one-record batch: the same panics as `write`; otherwise the segment changes as appending the Put record does, and on success the index is the old one with the key pointing at the new handle; on failure the index and the view are unchanged; with a cooperative script the offset moves by `21 + |key| + |value|`, the key reads as the value and get returns it |
| Db.BitcaskDB.Delete | src/db.rs:53-57 | a write of a one-tombstone batch: the same panics as `write`; otherwise the segment changes as appending the Del record does, and on success the index is the old one with the key pointing at the new handle; on failure the index and the view are unchanged; with a cooperative script the offset moves by `21 + |key|`, the key reads as absent and get returns `Ok(None)` |
| Versions.VersionSet.constructor | src/versionset.rs:33-35 | ids are handed out from just above the invalid id, with manifest 0 and none handed out yet |
| Versions.VersionSet.NewLogfileId | src/versionset.rs:40-44 | returns the old next id and increments it by one, leaving the manifest and the current version alone; the id is never the invalid id and was never handed out before; the increment past `u64::MAX` panics |
| Versions.VersionSet.Recovery | src/versionset.rs:46-48 | succeeds and changes nothing |
| Versions.VersionSet.LogAndApply | src/versionset.rs:59-61 | succeeds and changes nothing |

## Left out

- Locking and shared ownership (`Arc<Mutex<…>>`, `Rc`): every operation runs alone, single-threaded.
- The database path, the `row_cache` and `bg_error` fields, and `flush_all`: none has behaviour (`flush_all` is `todo!()`).
- Segment creation and rotation in `write`: these are `todo!()` and are modelled as `Err(Panic)`.
- `VersionSet::new` and `current` are `todo!()`. The constructor follows the commented initial values, and the current version is a parameter.
- `write_current_file` is file-system I/O with no counterpart in the model, and nothing calls it.
- Version-edit application and manifest replay: no code implements them, so `VersionEdit` is an inert record.
- The operating system's `write_at`, `read_at` and `sync_all` are replaced by a script of outcomes, a `readFails` flag and a `syncFails` flag.
  - A script is finite. Once it is used up, every `write_at` writes the whole buffer, so an endless run of `Interrupted` (which would spin the source forever) is not modelled.
- `read_at`'s short read reaches `todo!()` and is modelled as `Err(Panic)`. Reads always return the bytes in the file.
- The checksum: it is a zero placeholder, never computed or verified, so the `verify_checksum` flags are carried but unused.
- `as_ref_entry` and the owned/borrowed split: both record types are one datatype, so the conversion is the identity.
- `get_offset`: it is the `offset` field, read directly.
- `LogFile::sync`: it is only the `syncFails` flag consulted by `write`.
- Offsets and lengths are unbounded naturals: overflow of the u64 offset and of the `usize` casts is not modelled.
- Model.Decode: the u32 sum `20 + keysz + valsz + 1` overflowing is modelled as a panic, the behaviour of a debug build; a release build would wrap.
- Versions.VersionSet.NewLogfileId: the increment past `u64::MAX` is a panic, the behaviour of a debug build; a release build would wrap.
- Db.BitcaskDB.Write: the new view is stated only for a cooperative script (every outcome in the whole script `Interrupted` or a write of at least one byte), although a script whose later outcomes are never reached would do. After a zero-byte write that the loop reaches, the handle covers a torn frame, reading it panics (Model.DecodeTornFrame), and the index is no longer sound.
- Db.BitcaskDB.Put and Db.BitcaskDB.Delete: likewise, the resulting view is stated only for a cooperative script.
- The compile-level inconsistencies of the source are not modelled; the model follows the evident intent. They are:
  - `read_entry` is called with two arguments but declared with one;
  - `INVALID_FILE_ID`, `KeyAndEntryHandle` and `get_file_id` are not defined.

=== FILE: bigendian.dfy ===
/** Big-endian encoding of unsigned integers into a fixed number of bytes. */
module BigEndian {
  import opened Types

  /** 256^w: the number of values that fit in w bytes. */
  function Pow256(w: nat): (p: nat)
    ensures p >= 1
  {
    if w == 0 then 1 else 256 * Pow256(w - 1)
  }

  /** The w-byte big-endian representation of n (Rust's `to_be_bytes`). */
  function ToBE(n: nat, w: nat): (r: seq<byte>)
    requires n < Pow256(w)
    ensures |r| == w
  {
    if w == 0 then [] else ToBE(n / 256, w - 1) + [n % 256]
  }

  /** The number whose big-endian representation is s (Rust's `from_be_bytes`). */
  function FromBE(s: seq<byte>): (n: nat)
    ensures n < Pow256(|s|)
  {
    if s == [] then 0 else FromBE(s[..|s| - 1]) * 256 + s[|s| - 1]
  }

  /** Reading back a big-endian representation gives the number that was written. */
  lemma {:induction false} FromToBE(n: nat, w: nat)
    requires n < Pow256(w)
    ensures FromBE(ToBE(n, w)) == n
  {
    if w > 0 {
      var r := ToBE(n, w);
      assert r[..w - 1] == ToBE(n / 256, w - 1);
      FromToBE(n / 256, w - 1);
    }
  }

  /** Every w-byte sequence is the representation of exactly one number. */
  lemma {:induction false} ToFromBE(s: seq<byte>)
    ensures ToBE(FromBE(s), |s|) == s
  {
    if s != [] {
      var init := s[..|s| - 1];
      var n := FromBE(s);
      ToFromBE(init);
      assert n / 256 == FromBE(init);
      assert n % 256 == s[|s| - 1];
      assert s == init + [s[|s| - 1]];
    }
  }
}

=== FILE: db.dfy ===
/**
 * The engine core: an ordered index from key to handle, one mutable
 * segment and a map of immutable segments, with the batch write path and
 * the point read path.  The mutex around the core is left out: every
 * operation runs alone.
 */
module Db {
  import opened Types
  import opened Model
  import opened DbFile
  import opened Batch

  type Key = seq<byte>

  /** `Options`: the size at which the mutable segment is to be rotated. */
  datatype Options = Options(targetFileSize: u64)

  /** `WriteOptions`: whether a write syncs the segment before it returns. */
  datatype WriteOptions = WriteOptions(sync: bool)

  /** `ReadOptions`: the checksum flag, which the read path never consults. */
  datatype ReadOptions = ReadOptions(verifyChecksum: bool)

  /** `KeyAndEntryHandle`: a key with the handle of the record just written for it. */
  datatype KeyAndEntryHandle = KeyAndEntryHandle(key: Key, handle: EntryHandle)

  /** What a read of a record shows: a Put its value, a Del that the key is absent. */
  function Visible(e: Entry): Option<seq<byte>> {
    if e.op.Put? then Some(ValueBytes(e)) else None
  }

  /** The map after assigning vs[0] to ks[0], then vs[1] to ks[1], and so on. */
  function Assign<K, V>(m: map<K, V>, ks: seq<K>, vs: seq<V>): map<K, V>
    requires |ks| == |vs|
    decreases |ks|
  {
    if ks == [] then m else Assign(m[ks[0] := vs[0]], ks[1..], vs[1..])
  }

  /**
   * Assigning in order: the last assignment to a key wins, a key that is
   * not assigned keeps its entry, and no other key appears.
   */
  lemma {:induction false} AssignLastWins<K, V>(m: map<K, V>, ks: seq<K>, vs: seq<V>, k: K)
    requires |ks| == |vs|
    ensures k in Assign(m, ks, vs) <==> k in m || k in ks
    ensures k !in ks && k in m ==> Assign(m, ks, vs)[k] == m[k]
    ensures forall i :: 0 <= i < |ks| && ks[i] == k && k !in ks[i + 1..] ==> Assign(m, ks, vs)[k] == vs[i]
    decreases |ks|
  {
    if ks != [] {
      AssignLastWins(m[ks[0] := vs[0]], ks[1..], vs[1..], k);
      forall i | 0 <= i < |ks| && ks[i] == k && k !in ks[i + 1..]
        ensures Assign(m, ks, vs)[k] == vs[i]
      {
        if i > 0 {
          assert ks[1..][i - 1] == k && ks[1..][i..] == ks[i + 1..];
        } else {
          assert k !in ks[1..];
        }
      }
    }
  }

  function Keys(rep: seq<Entry>): (ks: seq<Key>)
    ensures |ks| == |rep| && forall i :: 0 <= i < |rep| ==> ks[i] == rep[i].key
  {
    seq(|rep|, i requires 0 <= i < |rep| => rep[i].key)
  }

  function Visibles(rep: seq<Entry>): (vs: seq<Option<seq<byte>>>)
    ensures |vs| == |rep| && forall i :: 0 <= i < |rep| ==> vs[i] == Visible(rep[i])
  {
    seq(|rep|, i requires 0 <= i < |rep| => Visible(rep[i]))
  }

  function PairKeys(ps: seq<KeyAndEntryHandle>): (ks: seq<Key>)
    ensures |ks| == |ps| && forall i :: 0 <= i < |ps| ==> ks[i] == ps[i].key
  {
    seq(|ps|, i requires 0 <= i < |ps| => ps[i].key)
  }

  function PairHandles(ps: seq<KeyAndEntryHandle>): (hs: seq<EntryHandle>)
    ensures |hs| == |ps| && forall i :: 0 <= i < |ps| ==> hs[i] == ps[i].handle
  {
    seq(|ps|, i requires 0 <= i < |ps| => ps[i].handle)
  }

  /** What the keys read as after a batch is applied in order to `view`. */
  function ApplyBatch(view: map<Key, Option<seq<byte>>>, rep: seq<Entry>): map<Key, Option<seq<byte>>> {
    Assign(view, Keys(rep), Visibles(rep))
  }

  /**
   * Within a batch the last record for a key decides what it reads as;
   * a key the batch does not mention reads as before.
   */
  lemma ApplyBatchLastWins(view: map<Key, Option<seq<byte>>>, rep: seq<Entry>, k: Key)
    ensures k in ApplyBatch(view, rep) <==> k in view || exists i :: 0 <= i < |rep| && rep[i].key == k
    ensures (forall i :: 0 <= i < |rep| ==> rep[i].key != k) && k in view ==> ApplyBatch(view, rep)[k] == view[k]
    ensures forall i :: 0 <= i < |rep| && rep[i].key == k && (forall j :: i < j < |rep| ==> rep[j].key != k) ==>
      ApplyBatch(view, rep)[k] == Visible(rep[i])
  {
    var ks := Keys(rep);
    AssignLastWins(view, ks, Visibles(rep), k);
    assert k in ks <==> exists i :: 0 <= i < |rep| && rep[i].key == k by {
      if k in ks {
        var i :| 0 <= i < |ks| && ks[i] == k;
        assert rep[i].key == k;
      }
    }
    forall i | 0 <= i < |rep| && rep[i].key == k && (forall j :: i < j < |rep| ==> rep[j].key != k)
      ensures k !in ks[i + 1..]
    {
    }
  }

  /** The index after `for h in handles { mem_index.insert(h.key, h.handle) }`. */
  function Upsert(index: map<Key, EntryHandle>, ps: seq<KeyAndEntryHandle>): map<Key, EntryHandle> {
    Assign(index, PairKeys(ps), PairHandles(ps))
  }

  /** Handles that lie back to back from `start` to `end`. */
  predicate Contiguous(ps: seq<KeyAndEntryHandle>, start: nat, end: nat)
    decreases |ps|
  {
    if ps == [] then start == end
    else
      var last := ps[|ps| - 1].handle;
      last.offset + last.length == end && Contiguous(ps[..|ps| - 1], start, last.offset)
  }

  /** The position of the last occurrence of k in ks. */
  function LastIndex<K(==)>(ks: seq<K>, k: K): (i: nat)
    requires k in ks
    ensures i < |ks| && ks[i] == k && k !in ks[i + 1..]
  {
    if ks[|ks| - 1] == k then |ks| - 1
    else
      assert ks == ks[..|ks| - 1] + [ks[|ks| - 1]];
      var i := LastIndex(ks[..|ks| - 1], k);
      assert ks[i + 1..] == ks[..|ks| - 1][i + 1..] + [ks[|ks| - 1]];
      i
  }

  /** The state behind the engine's mutex (`BitcaskCore`). */
  class BitcaskCore {
    /** The segment that takes appends, if one has been created. */
    var mutLog: LogFile?
    /** The read-only segments, by id. */
    var immLogs: map<FileId, LogFile>
    /** The ordered index from key to the handle of its latest record. */
    var memIndex: map<Key, EntryHandle>

    ghost predicate Valid()
      reads this`mutLog, this`immLogs, mutLog, immLogs.Values
    {
      && (mutLog != null ==> mutLog.Valid() && mutLog.id != INVALID_FILE_ID && mutLog !in immLogs.Values)
      && (forall id :: id in immLogs ==> immLogs[id].id == id && immLogs[id].Valid())
      && INVALID_FILE_ID !in immLogs
    }

    /** `BitcaskCore::new`: no segment, an empty index. */
    constructor ()
      ensures Valid()
      ensures mutLog == null && immLogs == map[] && memIndex == map[]
    {
      mutLog := null;
      immLogs := map[];
      memIndex := map[];
    }

    /**
     * The segment a handle names: the mutable one if the ids match, else
     * the immutable one with that id, else none.
     */
    function Resolve(h: EntryHandle): (log: LogFile?)
      reads this`mutLog, this`immLogs
      ensures log != null ==> log == mutLog || (h.fileId in immLogs && log == immLogs[h.fileId])
      ensures log == null <==> (mutLog == null || mutLog.id != h.fileId) && h.fileId !in immLogs
    {
      if mutLog != null && mutLog.id == h.fileId then mutLog
      else if h.fileId in immLogs then immLogs[h.fileId]
      else null
    }

    /**
     * The handle of key k is sound: it names a segment the core holds,
     * lies in the written part of the mutable segment, and its bytes
     * decode to a record for k.
     */
    ghost predicate HandleSound(k: Key, h: EntryHandle)
      reads this`mutLog, this`immLogs, mutLog, immLogs.Values
    {
      && h.fileId != INVALID_FILE_ID
      && Resolve(h) != null
      && (Resolve(h) == mutLog ==> h.offset + h.length <= mutLog.offset)
      && Read(h).Ok?
      && Read(h).value.key == k
    }

    /** What reading the record a handle names yields. */
    ghost function Read(h: EntryHandle): Result<Entry>
      reads this`mutLog, this`immLogs, mutLog, immLogs.Values
    {
      var log := Resolve(h);
      if log == null then Err(Panic) else log.ReadEntry(h, false)
    }

    ghost predicate IndexSound(index: map<Key, EntryHandle>)
      reads this`mutLog, this`immLogs, mutLog, immLogs.Values
    {
      forall k :: k in index ==> HandleSound(k, index[k])
    }

    /** Every handle in the index is sound. */
    ghost predicate Sound()
      reads this`mutLog, this`immLogs, this`memIndex, mutLog, immLogs.Values
    {
      IndexSound(memIndex)
    }

    /** What the keys of a sound index read as. */
    ghost function ViewOf(index: map<Key, EntryHandle>): map<Key, Option<seq<byte>>>
      requires IndexSound(index)
      reads this`mutLog, this`immLogs, mutLog, immLogs.Values
    {
      map k | k in index :: Visible(Read(index[k]).value)
    }

    /** What every key reads as: its value, None for a tombstone. */
    ghost function View(): map<Key, Option<seq<byte>>>
      requires Sound()
      reads this`mutLog, this`immLogs, this`memIndex, mutLog, immLogs.Values
    {
      ViewOf(memIndex)
    }
  
    /**
     * `mem_index.insert` of every pair, in order.  When the pairs name the
     * records of the batch rep, the view afterwards is the old view with the
     * batch applied.
     */
    method InsertAll(ps: seq<KeyAndEntryHandle>, ghost rep: seq<Entry>)
      modifies this`memIndex
      ensures memIndex == Upsert(old(memIndex), ps)
      ensures old(UpsertReads(memIndex, ps, rep)) ==>
        Sound() && View() == ApplyBatch(old(ViewOf(memIndex)), rep)
    {
      if UpsertReads(memIndex, ps, rep) {
        ViewOfUpsert(memIndex, ps, rep);
      }
      InsertEach(ps);
      SegmentsUnchanged(this);
    }

    /** The insertion loop itself: the index ends up upserted with every pair, in order. */
    method InsertEach(ps: seq<KeyAndEntryHandle>)
      modifies this`memIndex
      ensures memIndex == Upsert(old(memIndex), ps)
    {
      for i := 0 to |ps|
        invariant Upsert(old(memIndex), ps) == Upsert(memIndex, ps[i..])
      {
        var tail := ps[i..];
        assert PairKeys(tail)[1..] == PairKeys(ps[i + 1..]);
        assert PairHandles(tail)[1..] == PairHandles(ps[i + 1..]);
        memIndex := memIndex[ps[i].key := ps[i].handle];
      }
      assert ps[|ps|..] == [];
    }

    /** What key k reads as once a sound index is upserted with the handles of a batch. */
    ghost predicate UpsertReads(index: map<Key, EntryHandle>, ps: seq<KeyAndEntryHandle>, rep: seq<Entry>)
      reads this`mutLog, this`immLogs, mutLog, immLogs.Values
    {
      && IndexSound(index)
      && |ps| == |rep|
      && forall j :: 0 <= j < |ps| ==>
        && ps[j].key == rep[j].key
        && HandleSound(ps[j].key, ps[j].handle)
        && Visible(Read(ps[j].handle).value) == Visible(rep[j])
    }

    lemma ViewOfUpsertAt(index: map<Key, EntryHandle>, ps: seq<KeyAndEntryHandle>, rep: seq<Entry>, k: Key)
      requires UpsertReads(index, ps, rep)
      ensures var u, v := Upsert(index, ps), ApplyBatch(ViewOf(index), rep);
        && (k in u <==> k in v)
        && (k in u ==> HandleSound(k, u[k]) && Visible(Read(u[k]).value) == v[k])
    {
      var ks := PairKeys(ps);
      assert ks == Keys(rep);
      AssignLastWins(index, ks, PairHandles(ps), k);
      AssignLastWins(ViewOf(index), ks, Visibles(rep), k);
      if k in ks {
        var i := LastIndex(ks, k);
        assert Upsert(index, ps)[k] == ps[i].handle;
      }
    }

    /**
     * Upserting handles that read back the records of a batch changes what
     * the keys read as exactly as applying the batch does.
     */
    lemma ViewOfUpsert(index: map<Key, EntryHandle>, ps: seq<KeyAndEntryHandle>, rep: seq<Entry>)
      requires UpsertReads(index, ps, rep)
      ensures IndexSound(Upsert(index, ps))
      ensures ViewOf(Upsert(index, ps)) == ApplyBatch(ViewOf(index), rep)
    {
      var u := Upsert(index, ps);
      var v := ApplyBatch(ViewOf(index), rep);
      forall k
        ensures k in u <==> k in v
        ensures k in u ==> HandleSound(k, u[k]) && Visible(Read(u[k]).value) == v[k]
      {
        ViewOfUpsertAt(index, ps, rep, k);
      }
      assert IndexSound(u);
      assert ViewOf(u) == v;
    }

    /**
     * Handles into the mutable segment whose bytes are the frames of a
     * batch's records are sound and read back what the records show.
     */
    lemma AppendedReads(index: map<Key, EntryHandle>, ps: seq<KeyAndEntryHandle>, rep: seq<Entry>)
      requires Valid() && mutLog != null && IndexSound(index) && |ps| == |rep|
      requires Placed(ps, rep, mutLog.id, mutLog.offset) && Framed(mutLog.content, ps, rep)
      ensures UpsertReads(index, ps, rep)
    {
      forall j | 0 <= j < |ps|
        ensures HandleSound(ps[j].key, ps[j].handle) && Visible(Read(ps[j].handle).value) == Visible(rep[j])
      {
        var h := ps[j].handle;
        assert FrameAt(mutLog.content, h, rep[j]);
        DecodeEncode(rep[j]);
        assert Read(h) == Ok(Canonical(rep[j]));
      }
    }

    /**
     * The `consume_by` step of `write`: append the records of a batch to
     * the mutable segment.  The index is not touched, so it reads as
     * before; under a cooperative script the new handles read back the
     * batch's records.
     */
    method Append(rep: seq<Entry>, io: seq<WriteOutcome>) returns (r: Result<seq<KeyAndEntryHandle>>, rest: seq<WriteOutcome>)
      requires Valid() && mutLog != null
      modifies mutLog
      ensures Valid()
      ensures Written(mutLog.content, mutLog.offset, r, rest) == AppendSpec(mutLog.id, old(mutLog.content), old(mutLog.offset), rep, io)
      ensures old(mutLog.offset) <= mutLog.offset
      ensures old(Sound()) ==> Sound() && View() == old(View())
      ensures r.Ok? ==> |r.value| == |rep| && PairKeys(r.value) == Keys(rep) && AllEncodable(rep)
      ensures Cooperative(io) && AllEncodable(rep) ==> r.Ok?
      ensures r.Ok? && Cooperative(io) && old(Sound()) ==> UpsertReads(memIndex, r.value, rep)
    {
      ghost var wasSound := Sound();
      AppendSpecShape(mutLog.id, mutLog.content, mutLog.offset, rep, io);
      AppendSpecKeeps(mutLog.id, mutLog.content, mutLog.offset, rep, io);
      if Cooperative(io) && AllEncodable(rep) {
        AppendCooperative(mutLog.id, mutLog.content, mutLog.offset, rep, io);
      }
      // Nothing has changed yet, so `old` below is the state before the appends.
      r, rest := AppendAll(mutLog, rep, io);
      assert AppendOnly(this);
      AppendKeepsValid(this);
      if wasSound {
        AppendKeepsView(this);
        if r.Ok? && Cooperative(io) {
          AppendedReads(memIndex, r.value, rep);
        }
      }
    }
  }

  /** Every record of the batch passes the assertions of `encode_to_bytes`. */
  predicate AllEncodable(rep: seq<Entry>) {
    forall i :: 0 <= i < |rep| ==> Encodable(rep[i])
  }

  /**
   * A batch built by `put` and `delete` whose keys and values are under the
   * bound passes the assertions of `encode_to_bytes` record by record.
   */
  lemma ValidBatchEncodable(batch: WriteBatch)
    requires batch.Valid()
    requires forall i :: 0 <= i < |batch.rep| ==> |batch.rep[i].key| < KEY_VALUE_LIMIT && ValueLen(batch.rep[i]) < KEY_VALUE_LIMIT
    ensures AllEncodable(batch.rep)
  {
    forall i | 0 <= i < |batch.rep| ensures Encodable(batch.rep[i]) {
      assert BatchEntry(batch.rep[i]);
    }
  }

  /**
   * Between two states only the written part of the mutable segment grew:
   * the same segments are held, the immutable ones are untouched, and the
   * bytes below the old write offset are kept.
   */
  twostate predicate AppendOnly(core: BitcaskCore)
    reads core, core.mutLog, core.immLogs.Values
  {
    && core.mutLog == old(core.mutLog) && core.immLogs == old(core.immLogs)
    && (forall l :: l in core.immLogs.Values ==> unchanged(l))
    && (core.mutLog != null ==>
      && core.mutLog.Valid()
      && old(core.mutLog.offset) <= core.mutLog.offset
      && old(core.mutLog.offset) <= |old(core.mutLog.content)|
      && core.mutLog.content[..old(core.mutLog.offset)] == old(core.mutLog.content)[..old(core.mutLog.offset)])
  }

  /** Appending keeps the core well formed. */
  twostate lemma AppendKeepsValid(core: BitcaskCore)
    requires old(core.Valid()) && AppendOnly(core)
    ensures core.Valid()
  {
    forall id | id in core.immLogs
      ensures core.immLogs[id].id == id && core.immLogs[id].Valid()
    {
      assert core.immLogs[id] in core.immLogs.Values;
    }
  }

  /** Appending keeps every handle of the sound index sound, reading the same record. */
  twostate lemma AppendKeepsHandles(core: BitcaskCore)
    requires old(core.Valid()) && old(core.Sound()) && AppendOnly(core)
    requires core.memIndex == old(core.memIndex)
    ensures forall k :: k in core.memIndex ==>
      core.HandleSound(k, core.memIndex[k]) && core.Read(core.memIndex[k]) == old(core.Read(core.memIndex[k]))
  {
    forall k | k in core.memIndex
      ensures core.HandleSound(k, core.memIndex[k]) && core.Read(core.memIndex[k]) == old(core.Read(core.memIndex[k]))
    {
      var h := core.memIndex[k];
      var log := core.Resolve(h);
      assert log == old(core.Resolve(h)) && log != null;
      assert old(core.Read(h)) == old(log.ReadEntry(h, false));
      assert core.Read(h) == log.ReadEntry(h, false);
      if log == core.mutLog {
        ReadAtPrefix(log.id, log.content, old(log.content), old(log.offset), h, false);
      } else {
        assert log in core.immLogs.Values;
      }
    }
  }

  /** Appending leaves the index sound and what every key reads as unchanged. */
  twostate lemma AppendKeepsView(core: BitcaskCore)
    requires old(core.Valid()) && old(core.Sound()) && AppendOnly(core)
    requires core.memIndex == old(core.memIndex)
    ensures core.Sound() && core.View() == old(core.View())
  {
    AppendKeepsHandles(core);
    assert core.Sound();
    forall k | k in core.memIndex
      ensures core.View()[k] == old(core.View())[k]
    {
    }
  }

  /**
   * Each pair carries the key of its record, which passed the assertions of
   * `encode_to_bytes`, and a handle into segment id below end.
   */
  predicate Placed(ps: seq<KeyAndEntryHandle>, rep: seq<Entry>, id: FileId, end: nat)
    requires |ps| <= |rep|
  {
    forall j :: 0 <= j < |ps| ==>
      ps[j].key == rep[j].key && Encodable(rep[j]) && ps[j].handle.fileId == id && ps[j].handle.offset + ps[j].handle.length <= end
  }

  /** The bytes each pair's handle covers are the frame of its record. */
  predicate Framed(content: seq<byte>, ps: seq<KeyAndEntryHandle>, rep: seq<Entry>)
    requires |ps| <= |rep|
  {
    forall j :: 0 <= j < |ps| ==> FrameAt(content, ps[j].handle, rep[j])
  }

  /** The length of a record's frame once encoded. */
  function FrameLen(e: Entry): nat {
    HEADER_LEN + |e.key| + 1 + ValueLen(e)
  }

  /** The total length of the frames of a batch. */
  function FramesLen(rep: seq<Entry>): nat
    decreases |rep|
  {
    if rep == [] then 0 else FrameLen(rep[0]) + FramesLen(rep[1..])
  }

  /** Earlier appends' pairs put before a later outcome; an error passes through unchanged. */
  function Join(pairs: seq<KeyAndEntryHandle>, a: Written<seq<KeyAndEntryHandle>>): Written<seq<KeyAndEntryHandle>> {
    if a.r.Err? then a else a.(r := Ok(pairs + a.r.value))
  }

  lemma JoinJoin(pairs: seq<KeyAndEntryHandle>, p: KeyAndEntryHandle, a: Written<seq<KeyAndEntryHandle>>)
    ensures Join(pairs, Join([p], a)) == Join(pairs + [p], a)
  {
    if a.r.Ok? {
      assert pairs + ([p] + a.r.value) == (pairs + [p]) + a.r.value;
    }
  }

  /**
   * What appending the records of a batch in order does to a segment's
   * bytes, its write offset and the script: each record is written as
   * `write_entry` writes it, and the first failed append ends the batch
   * with its error.  On success the pairs name, in order, each record's
   * key and handle.
   */
  function AppendSpec(id: FileId, content: seq<byte>, offset: nat, rep: seq<Entry>, io: seq<WriteOutcome>): (a: Written<seq<KeyAndEntryHandle>>)
    requires offset <= |content|
    ensures offset <= a.offset <= |a.content|
    ensures a.r.Ok? ==> |a.r.value| == |rep|
    decreases |rep|
  {
    if rep == [] then Written(content, offset, Ok([]), io)
    else
      var w := EntryWrite(id, content, offset, rep[0], io);
      if w.r.Err? then Written(w.content, w.offset, Err(w.r.fault), w.rest)
      else Join([KeyAndEntryHandle(rep[0].key, w.r.value)], AppendSpec(id, w.content, w.offset, rep[1..], w.rest))
  }

  /** Contiguous handles stay contiguous with one more handle in front. */
  lemma {:induction false} ContiguousCons(p: KeyAndEntryHandle, ps: seq<KeyAndEntryHandle>, start: nat, end: nat)
    requires Contiguous(ps, start + p.handle.length, end) && p.handle.offset == start
    ensures Contiguous([p] + ps, start, end)
    decreases |ps|
  {
    if ps == [] {
      assert ([p] + ps)[..0] == [];
    } else {
      var last := ps[|ps| - 1].handle;
      ContiguousCons(p, ps[..|ps| - 1], start, last.offset);
      assert ([p] + ps)[..|ps|] == [p] + ps[..|ps| - 1];
    }
  }

  /**
   * A successful batch yields one pair per record, in order, each with its
   * record's key and a handle into segment id, the handles lying back to
   * back from the old offset to the new one.
   */
  lemma {:induction false} AppendSpecShape(id: FileId, content: seq<byte>, offset: nat, rep: seq<Entry>, io: seq<WriteOutcome>)
    requires offset <= |content|
    ensures var a := AppendSpec(id, content, offset, rep, io);
      a.r.Ok? ==> PairKeys(a.r.value) == Keys(rep) && Placed(a.r.value, rep, id, a.offset) && Contiguous(a.r.value, offset, a.offset)
    decreases |rep|
  {
    if rep != [] {
      var w := EntryWrite(id, content, offset, rep[0], io);
      EntryWriteKeeps(id, content, offset, rep[0], io);
      if w.r.Ok? {
        AppendSpecShape(id, w.content, w.offset, rep[1..], w.rest);
        var a := AppendSpec(id, w.content, w.offset, rep[1..], w.rest);
        if a.r.Ok? {
          ShapeCons(KeyAndEntryHandle(rep[0].key, w.r.value), a.r.value, rep, id, offset, w.offset, a.offset);
        }
      }
    }
  }

  /** The shape of a successful batch, extended by one record in front. */
  lemma ShapeCons(p: KeyAndEntryHandle, ps: seq<KeyAndEntryHandle>, rep: seq<Entry>, id: FileId, start: nat, mid: nat, end: nat)
    requires |rep| == |ps| + 1 && p.key == rep[0].key && Encodable(rep[0])
    requires p.handle.fileId == id && p.handle.offset == start && start + p.handle.length == mid <= end
    requires PairKeys(ps) == Keys(rep[1..]) && Placed(ps, rep[1..], id, end) && Contiguous(ps, mid, end)
    ensures PairKeys([p] + ps) == Keys(rep) && Placed([p] + ps, rep, id, end) && Contiguous([p] + ps, start, end)
  {
    ContiguousCons(p, ps, start, end);
    var qs := [p] + ps;
    forall j | 0 <= j < |qs|
      ensures qs[j].key == rep[j].key && Encodable(rep[j]) && qs[j].handle.fileId == id
      ensures qs[j].handle.offset + qs[j].handle.length <= end
    {
      if j > 0 {
        assert qs[j] == ps[j - 1] && rep[j] == rep[1..][j - 1];
      }
    }
    assert PairKeys(qs) == Keys(rep);
  }

  /** A batch keeps the bytes below the offset it starts at. */
  lemma {:induction false} AppendSpecKeeps(id: FileId, content: seq<byte>, offset: nat, rep: seq<Entry>, io: seq<WriteOutcome>)
    requires offset <= |content|
    ensures SamePrefix(content, AppendSpec(id, content, offset, rep, io).content, offset)
    decreases |rep|
  {
    if rep != [] {
      var w := EntryWrite(id, content, offset, rep[0], io);
      EntryWriteKeeps(id, content, offset, rep[0], io);
      if w.r.Ok? {
        var a := AppendSpec(id, w.content, w.offset, rep[1..], w.rest);
        AppendSpecKeeps(id, w.content, w.offset, rep[1..], w.rest);
        SamePrefixTrans(content, w.content, a.content, offset, w.offset);
      }
    }
  }

  /**
   * When the operating system cooperates, a batch whose records all pass
   * the assertions of `encode_to_bytes` is appended whole: the write
   * offset moves past every frame, each handle covers its record's frame,
   * and the script stays cooperative.
   */
  lemma {:induction false} AppendCooperative(id: FileId, content: seq<byte>, offset: nat, rep: seq<Entry>, io: seq<WriteOutcome>)
    requires offset <= |content| && Cooperative(io) && AllEncodable(rep)
    ensures var a := AppendSpec(id, content, offset, rep, io);
      && a.r.Ok? && a.offset == offset + FramesLen(rep) && Cooperative(a.rest)
      && Framed(a.content, a.r.value, rep)
    decreases |rep|
  {
    if rep != [] {
      EntryWriteCooperative(id, content, offset, rep[0], io);
      var w := EntryWrite(id, content, offset, rep[0], io);
      AllEncodableTail(rep);
      AppendCooperative(id, w.content, w.offset, rep[1..], w.rest);
      AppendSpecKeeps(id, w.content, w.offset, rep[1..], w.rest);
      var a := AppendSpec(id, w.content, w.offset, rep[1..], w.rest);
      FramedCons(w.content, a.content, w.offset, KeyAndEntryHandle(rep[0].key, w.r.value), a.r.value, rep);
    }
  }

  lemma AllEncodableTail(rep: seq<Entry>)
    requires rep != [] && AllEncodable(rep)
    ensures AllEncodable(rep[1..])
  {
    forall i | 0 <= i < |rep| - 1 ensures Encodable(rep[1..][i]) {
      assert rep[1..][i] == rep[i + 1];
    }
  }

  /**
   * A frame written below n, followed by frames written from n on without
   * touching the bytes below n, gives the frames of the whole batch.
   */
  lemma FramedCons(c1: seq<byte>, c2: seq<byte>, n: nat, p: KeyAndEntryHandle, ps: seq<KeyAndEntryHandle>, rep: seq<Entry>)
    requires |rep| == |ps| + 1 && FrameAt(c1, p.handle, rep[0]) && p.handle.offset + p.handle.length <= n
    requires SamePrefix(c1, c2, n) && Framed(c2, ps, rep[1..])
    ensures Framed(c2, [p] + ps, rep)
  {
    var h := p.handle;
    SliceOfCommonPrefix(c1, c2, n, h.offset, h.offset + h.length);
    var qs := [p] + ps;
    forall j | 0 <= j < |qs| ensures FrameAt(c2, qs[j].handle, rep[j]) {
      if j > 0 {
        assert qs[j] == ps[j - 1] && rep[j] == rep[1..][j - 1];
      }
    }
  }

  /** Unfolding the appends of rep[i..] by one record. */
  lemma AppendSpecStep(id: FileId, content: seq<byte>, offset: nat, rep: seq<Entry>, i: nat, io: seq<WriteOutcome>)
    requires offset <= |content| && i < |rep|
    ensures var w := EntryWrite(id, content, offset, rep[i], io);
      AppendSpec(id, content, offset, rep[i..], io) ==
        if w.r.Err? then Written(w.content, w.offset, Err(w.r.fault), w.rest)
        else Join([KeyAndEntryHandle(rep[i].key, w.r.value)], AppendSpec(id, w.content, w.offset, rep[i + 1..], w.rest))
  {
    assert rep[i..][0] == rep[i] && rep[i..][1..] == rep[i + 1..];
  }

  /**
   * Record i is the one whose append failed: the records before it were
   * all appended, and the batch ends with the state and the error that
   * record's append left.
   */
  ghost predicate AppendFailsAt(id: FileId, content: seq<byte>, offset: nat, rep: seq<Entry>, io: seq<WriteOutcome>, i: nat)
    requires offset <= |content| && i < |rep|
  {
    var before := AppendSpec(id, content, offset, rep[..i], io);
    && before.r.Ok?
    && var w := EntryWrite(id, before.content, before.offset, rep[i], before.rest);
    && w.r.Err?
    && AppendSpec(id, content, offset, rep, io) == Written(w.content, w.offset, Err(w.r.fault), w.rest)
  }

  /**
   * A failed batch failed at one record: every record before it was
   * appended back to back, it was refused or its write failed partway, and
   * nothing after it was written.
   */
  lemma {:induction false} AppendStops(id: FileId, content: seq<byte>, offset: nat, rep: seq<Entry>, io: seq<WriteOutcome>)
    requires offset <= |content| && AppendSpec(id, content, offset, rep, io).r.Err?
    ensures exists i :: 0 <= i < |rep| && AppendFailsAt(id, content, offset, rep, io, i)
    decreases |rep|
  {
    var w := EntryWrite(id, content, offset, rep[0], io);
    assert rep[..0] == [];
    if w.r.Ok? {
      AppendStops(id, w.content, w.offset, rep[1..], w.rest);
      var i :| 0 <= i < |rep| - 1 && AppendFailsAt(id, w.content, w.offset, rep[1..], w.rest, i);
      assert rep[..i + 1][0] == rep[0] && rep[..i + 1][1..] == rep[1..][..i];
      assert rep[1..][i] == rep[i + 1];
      assert AppendFailsAt(id, content, offset, rep, io, i + 1);
    } else {
      assert AppendFailsAt(id, content, offset, rep, io, 0);
    }
  }

  /**
   * `batch.consume_by(|x| mut_log.write_entry(x) ...)`: append the records
   * of a batch in order, stopping at the first failed append.  This is
   * `WriteBatch.ConsumeBy` with `write_entry` as the step, written out
   * because each step changes the segment.  It does what AppendSpec says;
   * under a script where the operating system cooperates every record is
   * appended whole.
   */
  method AppendAll(log: LogFile, rep: seq<Entry>, io: seq<WriteOutcome>) returns (r: Result<seq<KeyAndEntryHandle>>, rest: seq<WriteOutcome>)
    requires log.Valid()
    modifies log
    ensures log.Valid()
    ensures Written(log.content, log.offset, r, rest) == AppendSpec(log.id, old(log.content), old(log.offset), rep, io)
  {
    ghost var whole := AppendSpec(log.id, log.content, log.offset, rep, io);
    var pairs: seq<KeyAndEntryHandle> := [];
    rest := io;
    assert rep[0..] == rep;
    assert whole.r.Ok? ==> [] + whole.r.value == whole.r.value;
    for i := 0 to |rep|
      invariant log.Valid()
      invariant whole == Join(pairs, AppendSpec(log.id, log.content, log.offset, rep[i..], rest))
    {
      AppendSpecStep(log.id, log.content, log.offset, rep, i, rest);
      var res;
      res, rest := log.WriteEntry(rep[i], rest);
      if res.Err? {
        return Err(res.fault), rest;
      }
      var p := KeyAndEntryHandle(rep[i].key, res.value);
      JoinJoin(pairs, p, AppendSpec(log.id, log.content, log.offset, rep[i + 1..], rest));
      pairs := pairs + [p];
    }
    assert rep[|rep|..] == [] && pairs + [] == pairs;
    r := Ok(pairs);
  }

  /** The keys of the index after upserting: the old keys and the batch's keys. */
  lemma UpsertKeys(index: map<Key, EntryHandle>, ps: seq<KeyAndEntryHandle>, k: Key)
    ensures k in Upsert(index, ps) <==> k in index || k in PairKeys(ps)
    ensures k in index && k !in PairKeys(ps) ==> Upsert(index, ps)[k] == index[k]
  {
    AssignLastWins(index, PairKeys(ps), PairHandles(ps), k);
  }

  /** A batch of one record sets what its key reads as and nothing else. */
  lemma ApplySingle(view: map<Key, Option<seq<byte>>>, e: Entry)
    ensures ApplyBatch(view, [e]) == view[e.key := Visible(e)]
  {
    assert Keys([e]) == [e.key] && Visibles([e]) == [Visible(e)];
    assert Assign(view, [e.key], [Visible(e)]) == Assign(view[e.key := Visible(e)], [], []);
  }

  /**
   * A batch of one record: its frames are its frame, and on success its one
   * pair carries the record's key, so upserting it is one insertion.
   */
  lemma SingleAppend(id: FileId, content: seq<byte>, offset: nat, e: Entry, io: seq<WriteOutcome>, index: map<Key, EntryHandle>)
    requires offset <= |content|
    ensures FramesLen([e]) == FrameLen(e)
    ensures var a := AppendSpec(id, content, offset, [e], io);
      a.r.Ok? ==> |a.r.value| == 1 && Upsert(index, a.r.value) == index[e.key := a.r.value[0].handle]
  {
    assert [e][1..] == [];
    AppendSpecShape(id, content, offset, [e], io);
    var a := AppendSpec(id, content, offset, [e], io);
    if a.r.Ok? {
      var p := a.r.value[0];
      assert a.r.value == [p];
      assert PairKeys([p]) == [p.key] && PairHandles([p]) == [p.handle];
      assert p.key == Keys([e])[0] == e.key;
      assert Assign(index, [p.key], [p.handle]) == Assign(index[p.key := p.handle], [], []);
    }
  }

  /** While the segments are untouched, every sound index reads as it did. */
  twostate lemma SegmentsUnchanged(core: BitcaskCore)
    requires unchanged(core`mutLog, core`immLogs) && (core.mutLog != null ==> unchanged(core.mutLog))
    requires forall l :: l in core.immLogs.Values ==> unchanged(l)
    ensures forall index :: old(core.IndexSound(index)) ==>
      core.IndexSound(index) && core.ViewOf(index) == old(core.ViewOf(index))
  {
    forall index | old(core.IndexSound(index))
      ensures core.IndexSound(index) && core.ViewOf(index) == old(core.ViewOf(index))
    {
      forall k | k in index
        ensures core.HandleSound(k, index[k]) && core.Read(index[k]) == old(core.Read(index[k]))
      {
        var log := core.Resolve(index[k]);
        if log != null && log != core.mutLog {
          assert log in core.immLogs.Values;
        }
      }
    }
  }

  /** A core none of whose objects changed reads as it did. */
  twostate lemma CoreUnchanged(core: BitcaskCore)
    requires old(core.Valid())
    requires unchanged(core) && (core.mutLog != null ==> unchanged(core.mutLog))
    requires forall l :: l in core.immLogs.Values ==> unchanged(l)
    ensures core.Valid()
    ensures old(core.Sound()) ==> core.Sound() && core.View() == old(core.View())
  {
  }

  /**
   * `BitcaskDB`: the options it was opened with and the core.  The path
   * and the mutex are left out.
   */
  class BitcaskDB {
    const options: Options
    const core: BitcaskCore

    ghost predicate Valid()
      reads core, core.mutLog, core.immLogs.Values
    {
      core.Valid()
    }

    /** `BitcaskDB::open`: an empty core; every key reads as absent. */
    constructor Open(options: Options)
      ensures Valid() && core.Sound() && fresh(core)
      ensures core.mutLog == null && core.immLogs == map[] && core.memIndex == map[]
      ensures this.options == options
      ensures core.View() == map[]
      ensures forall ropts, key, readFails :: Get(ropts, key, readFails) == Ok(None)
    {
      this.options := options;
      core := new BitcaskCore();
    }

    /**
     * `BitcaskDB::get`: look the key up in the index and read the record
     * its handle names.  A missing key reads as absent; an invalid id or a
     * handle naming no segment panics; a read error is returned; a Put
     * record yields its value and a Del record yields absent.
     */
    function Get(ropts: ReadOptions, key: Key, readFails: bool): (r: Result<Option<seq<byte>>>)
      reads core, core.mutLog, core.immLogs.Values
      ensures key !in core.memIndex ==> r == Ok(None)
      ensures key in core.memIndex && readFails ==> r.Err?
      ensures (key in core.memIndex &&
        (core.memIndex[key].fileId == INVALID_FILE_ID || core.Resolve(core.memIndex[key]) == null)) ==> r == Err(Panic)
      ensures Valid() && core.Sound() && !readFails ==>
        r == Ok(if key in core.View() then core.View()[key] else None)
    {
      if key !in core.memIndex then Ok(None)
      else
        var h := core.memIndex[key];
        if h.fileId == INVALID_FILE_ID then Err(Panic)
        else
          var log := core.Resolve(h);
          if log == null then Err(Panic)
          else match log.ReadEntry(h, readFails)
            case Err(f) => Err(f)
            case Ok(e) => if e.op.Put? then Ok(e.value) else Ok(None)
    }

    /**
     * `BitcaskDB::write`: append every record of the batch to the mutable
     * segment, sync it if asked, then point the index at the new records.
     * With no mutable segment, or one that has reached the target size,
     * the source reaches a `todo!()`.  `io` scripts the operating system's
     * writes and `syncFails` says whether its sync fails.
     */
    method Write(wopts: WriteOptions, batch: WriteBatch, io: seq<WriteOutcome>, syncFails: bool) returns (r: Result<()>, rest: seq<WriteOutcome>)
      requires Valid()
      modifies core`memIndex, core.mutLog
      ensures Valid()
      ensures core.mutLog == old(core.mutLog) && core.immLogs == old(core.immLogs)
      ensures old(core.mutLog) == null ==> r == Err(Panic) && core.memIndex == old(core.memIndex) && rest == io
      ensures core.mutLog != null && old(core.mutLog.offset) >= options.targetFileSize ==>
        r == Err(Panic) && core.memIndex == old(core.memIndex) && unchanged(core.mutLog) && rest == io
      ensures core.mutLog != null && old(core.mutLog.offset) < options.targetFileSize ==>
        var a := AppendSpec(core.mutLog.id, old(core.mutLog.content), old(core.mutLog.offset), batch.rep, io);
        && core.mutLog.content == a.content && core.mutLog.offset == a.offset && rest == a.rest
        && r == (if a.r.Err? then Err(a.r.fault) else if wopts.sync && syncFails then Err(IoError) else Ok(()))
        && (r.Ok? ==> core.memIndex == Upsert(old(core.memIndex), a.r.value))
      ensures core.mutLog != null ==> old(core.mutLog.offset) <= core.mutLog.offset
      ensures r.Err? ==> core.memIndex == old(core.memIndex)
      ensures r.Err? && old(core.Sound()) ==> core.Sound() && core.View() == old(core.View())
      ensures r.Ok? ==> !(wopts.sync && syncFails) && AllEncodable(batch.rep)
      ensures r.Ok? ==> forall k :: k in core.memIndex <==> k in old(core.memIndex) || k in Keys(batch.rep)
      ensures r.Ok? ==> forall k :: k in old(core.memIndex) && k !in Keys(batch.rep) ==> core.memIndex[k] == old(core.memIndex)[k]
      ensures r.Ok? && Cooperative(io) ==>
        core.mutLog != null && core.mutLog.offset == old(core.mutLog.offset) + FramesLen(batch.rep)
      ensures r.Ok? && Cooperative(io) && old(core.Sound()) ==>
        core.Sound() && core.View() == ApplyBatch(old(core.View()), batch.rep)
      ensures
        && core.mutLog != null && old(core.mutLog.offset) < options.targetFileSize
        && Cooperative(io) && AllEncodable(batch.rep) && !(wopts.sync && syncFails)
        ==> r == Ok(())
    {
      if core.mutLog == null {
        return Err(Panic), io;
      }
      if core.mutLog.offset >= options.targetFileSize {
        return Err(Panic), io;
      }
      ghost var index := core.memIndex;
      if Cooperative(io) && AllEncodable(batch.rep) {
        AppendCooperative(core.mutLog.id, core.mutLog.content, core.mutLog.offset, batch.rep, io);
      }
      var appended;
      appended, rest := core.Append(batch.rep, io);
      if appended.Err? {
        return Err(appended.fault), rest;
      }
      if wopts.sync && syncFails {
        return Err(IoError), rest;
      }
      var ps := appended.value;
      core.InsertAll(ps, batch.rep);
      forall k
        ensures k in core.memIndex <==> k in index || k in Keys(batch.rep)
        ensures k in index && k !in Keys(batch.rep) ==> core.memIndex[k] == index[k]
      {
        UpsertKeys(index, ps, k);
      }
      r := Ok(());
    }

    /** `BitcaskDB::put`: write a batch holding one Put record. */
    method Put(wopts: WriteOptions, key: Key, value: seq<byte>, io: seq<WriteOutcome>, syncFails: bool) returns (r: Result<()>, rest: seq<WriteOutcome>)
      requires Valid()
      modifies core`memIndex, core.mutLog
      ensures Valid()
      ensures core.mutLog == old(core.mutLog) && core.immLogs == old(core.immLogs)
      ensures old(core.mutLog) == null ==> r == Err(Panic) && rest == io
      ensures core.mutLog != null && old(core.mutLog.offset) >= options.targetFileSize ==>
        r == Err(Panic) && unchanged(core.mutLog) && rest == io
      ensures core.mutLog != null && old(core.mutLog.offset) < options.targetFileSize ==>
        var a := AppendSpec(core.mutLog.id, old(core.mutLog.content), old(core.mutLog.offset), [Entry(Model.Put, key, Some(value), Some(0))], io);
        && core.mutLog.content == a.content && core.mutLog.offset == a.offset && rest == a.rest
        && r == (if a.r.Err? then Err(a.r.fault) else if wopts.sync && syncFails then Err(IoError) else Ok(()))
        && (r.Ok? ==> core.memIndex == old(core.memIndex)[key := a.r.value[0].handle])
      ensures core.mutLog != null ==> old(core.mutLog.offset) <= core.mutLog.offset
      ensures r.Ok? && Cooperative(io) ==>
        core.mutLog != null && core.mutLog.offset == old(core.mutLog.offset) + HEADER_LEN + |key| + 1 + |value|
      ensures r.Err? ==> core.memIndex == old(core.memIndex)
      ensures r.Err? && old(core.Sound()) ==> core.Sound() && core.View() == old(core.View())
      ensures r.Ok? ==> |key| < KEY_VALUE_LIMIT && |value| < KEY_VALUE_LIMIT
      ensures r.Ok? && Cooperative(io) && old(core.Sound()) ==>
        core.Sound() && core.View() == old(core.View())[key := Some(value)]
      ensures r.Ok? && Cooperative(io) && old(core.Sound()) ==>
        forall ropts :: Get(ropts, key, false) == Ok(Some(value))
      ensures
        && core.mutLog != null && old(core.mutLog.offset) < options.targetFileSize && Cooperative(io)
        && |key| < KEY_VALUE_LIMIT && |value| < KEY_VALUE_LIMIT && !(wopts.sync && syncFails)
        ==> r == Ok(())
    {
      ghost var sound0 := core.Sound();
      ghost var view0 := if sound0 then core.View() else map[];
      ghost var log0 := core.mutLog;
      ghost var c0, o0 := if log0 != null then log0.content else [], if log0 != null then log0.offset else 0;
      var batch := new WriteBatch();
      batch.Put(key, value);
      ghost var e := batch.rep[0];
      assert batch.rep == [e];
      CoreUnchanged(core);
      if log0 != null && o0 <= |c0| {
        SingleAppend(log0.id, c0, o0, e, io, core.memIndex);
      }
      r, rest := Write(wopts, batch, io, syncFails);
      if r.Ok? && Cooperative(io) && sound0 {
        ApplySingle(view0, e);
      }

    }

    /** `BitcaskDB::delete`: write a batch holding one Del record. */
    method Delete(wopts: WriteOptions, key: Key, io: seq<WriteOutcome>, syncFails: bool) returns (r: Result<()>, rest: seq<WriteOutcome>)
      requires Valid()
      modifies core`memIndex, core.mutLog
      ensures Valid()
      ensures core.mutLog == old(core.mutLog) && core.immLogs == old(core.immLogs)
      ensures old(core.mutLog) == null ==> r == Err(Panic) && rest == io
      ensures core.mutLog != null && old(core.mutLog.offset) >= options.targetFileSize ==>
        r == Err(Panic) && unchanged(core.mutLog) && rest == io
      ensures core.mutLog != null && old(core.mutLog.offset) < options.targetFileSize ==>
        var a := AppendSpec(core.mutLog.id, old(core.mutLog.content), old(core.mutLog.offset), [Entry(Del, key, None, Some(0))], io);
        && core.mutLog.content == a.content && core.mutLog.offset == a.offset && rest == a.rest
        && r == (if a.r.Err? then Err(a.r.fault) else if wopts.sync && syncFails then Err(IoError) else Ok(()))
        && (r.Ok? ==> core.memIndex == old(core.memIndex)[key := a.r.value[0].handle])
      ensures core.mutLog != null ==> old(core.mutLog.offset) <= core.mutLog.offset
      ensures r.Ok? && Cooperative(io) ==>
        core.mutLog != null && core.mutLog.offset == old(core.mutLog.offset) + HEADER_LEN + |key| + 1
      ensures r.Err? ==> core.memIndex == old(core.memIndex)
      ensures r.Err? && old(core.Sound()) ==> core.Sound() && core.View() == old(core.View())
      ensures r.Ok? ==> |key| < KEY_VALUE_LIMIT
      ensures r.Ok? && Cooperative(io) && old(core.Sound()) ==>
        core.Sound() && core.View() == old(core.View())[key := None]
      ensures r.Ok? && Cooperative(io) && old(core.Sound()) ==>
        forall ropts :: Get(ropts, key, false) == Ok(None)
      ensures
        && core.mutLog != null && old(core.mutLog.offset) < options.targetFileSize && Cooperative(io)
        && |key| < KEY_VALUE_LIMIT && !(wopts.sync && syncFails)
        ==> r == Ok(())
    {
      ghost var sound0 := core.Sound();
      ghost var view0 := if sound0 then core.View() else map[];
      ghost var log0 := core.mutLog;
      ghost var c0, o0 := if log0 != null then log0.content else [], if log0 != null then log0.offset else 0;
      var batch := new WriteBatch();
      batch.Delete(key);
      ghost var e := batch.rep[0];
      assert batch.rep == [e];
      CoreUnchanged(core);
      if log0 != null && o0 <= |c0| {
        SingleAppend(log0.id, c0, o0, e, io, core.memIndex);
      }
      r, rest := Write(wopts, batch, io, syncFails);
      if r.Ok? && Cooperative(io) && sound0 {
        ApplySingle(view0, e);
      }

    }
  }
}

=== FILE: dbfile.dfy ===
/**
 * A segment file (`LogFile`): an append-only file with a write offset that
 * only moves forward.  The file is modelled as its byte sequence; the
 * operating system's `write_at` is an oracle given as a script of outcomes.
 */
module DbFile {
  import opened Types
  import opened Model

  type FileId = u64

  /** Segment id 0 is reserved as "invalid/unset". */
  const INVALID_FILE_ID: FileId := 0

  /** Where one framed record lives: segment id, byte offset, byte length. */
  datatype EntryHandle = EntryHandle(fileId: FileId, offset: nat, length: nat)

  /**
   * What one call of the operating system's `write_at` reports:
   *   Wrote(n)    - n bytes were written (at most the buffer's length, so
   *                 a larger n stands for the whole buffer); 0 means EOF;
   *   Interrupted - an error of kind `Interrupted`, nothing written;
   *   Failed      - any other error, nothing written by this call.
   * A script lists the outcomes of successive calls; once it is used up,
   * every further call writes the whole buffer it is given.
   */
  datatype WriteOutcome = Wrote(n: nat) | Interrupted | Failed

  /** What the write loop achieves: bytes written, whether it failed, and the unused script. */
  datatype Transfer = Transfer(count: nat, failed: bool, rest: seq<WriteOutcome>)

  function Min(a: nat, b: nat): nat {
    if a <= b then a else b
  }

  /**
   * The effect of the `while nwrite < data.len()` loop of `write_entry` on
   * `remaining` bytes under the script `io`: Interrupted is retried, a
   * zero-byte write ends the loop early, any other error ends it with a
   * failure, and every other call makes progress.
   */
  function Transferred(io: seq<WriteOutcome>, remaining: nat): (t: Transfer)
    ensures t.count <= remaining
    ensures t.failed ==> t.count < remaining
    decreases |io|
  {
    if remaining == 0 then Transfer(0, false, io)
    else if io == [] then Transfer(remaining, false, [])
    else match io[0]
      case Interrupted => Transferred(io[1..], remaining)
      case Failed => Transfer(0, true, io[1..])
      case Wrote(n) =>
        if n == 0 then Transfer(0, false, io[1..])
        else
          var k := Min(n, remaining);
          var t := Transferred(io[1..], remaining - k);
          t.(count := k + t.count)
  }

  /** A transfer preceded by `k` bytes already written. */
  function Shifted(t: Transfer, k: nat): Transfer {
    t.(count := k + t.count)
  }

  /** What the next call of `write_at` on a buffer of `len` bytes reports under the script `io`. */
  function NextOutcome(io: seq<WriteOutcome>, len: nat): (o: WriteOutcome)
    ensures o.Wrote? ==> o.n <= len
  {
    if io == [] then Wrote(len)
    else if io[0].Wrote? then Wrote(Min(io[0].n, len))
    else io[0]
  }

  /** The script left after one call of `write_at`. */
  function NextScript(io: seq<WriteOutcome>): (rest: seq<WriteOutcome>)
    ensures io != [] ==> |rest| < |io|
  {
    if io == [] then [] else io[1..]
  }

  /** One iteration of the write loop, in terms of Transferred. */
  lemma TransferredStep(io: seq<WriteOutcome>, m: nat)
    requires m > 0
    ensures var o, rest := NextOutcome(io, m), NextScript(io);
      && (o.Interrupted? ==> io != [] && Transferred(io, m) == Transferred(rest, m))
      && (o.Failed? ==> Transferred(io, m) == Transfer(0, true, rest))
      && (o.Wrote? && o.n == 0 ==> Transferred(io, m) == Transfer(0, false, rest))
      && (o.Wrote? && o.n > 0 ==> (io == [] ==> rest == []) && Transferred(io, m) == Shifted(Transferred(rest, m - o.n), o.n))
  {
  }

  /** A script in which every call either is interrupted or makes progress. */
  predicate Cooperative(io: seq<WriteOutcome>) {
    forall i :: 0 <= i < |io| ==> io[i].Interrupted? || (io[i].Wrote? && io[i].n > 0)
  }

  /** Under a cooperative script the whole buffer is written and nothing fails. */
  lemma {:induction false} TransferredCooperative(io: seq<WriteOutcome>, remaining: nat)
    requires Cooperative(io)
    ensures Transferred(io, remaining).count == remaining
    ensures !Transferred(io, remaining).failed
    ensures Cooperative(Transferred(io, remaining).rest)
    decreases |io|
  {
    if remaining > 0 && io != [] {
      assert Cooperative(io[1..]) by {
        forall i | 0 <= i < |io| - 1 ensures io[1..][i] == io[i + 1] { }
      }
      match io[0]
      case Interrupted => TransferredCooperative(io[1..], remaining);
      case Wrote(n) => TransferredCooperative(io[1..], remaining - Min(n, remaining));
    }
  }

  /** The file contents after writing `bytes` at position `pos`. */
  function WriteAt(content: seq<byte>, pos: nat, bytes: seq<byte>): (r: seq<byte>)
    requires pos <= |content|
    ensures |r| == if pos + |bytes| <= |content| then |content| else pos + |bytes|
  {
    var tail := if pos + |bytes| <= |content| then content[pos + |bytes|..] else [];
    content[..pos] + bytes + tail
  }

  /** A write leaves the bytes before it alone and puts its own bytes in place. */
  lemma WriteAtContents(content: seq<byte>, pos: nat, bytes: seq<byte>)
    requires pos <= |content|
    ensures WriteAt(content, pos, bytes)[..pos] == content[..pos]
    ensures WriteAt(content, pos, bytes)[pos..pos + |bytes|] == bytes
  {
    var r := WriteAt(content, pos, bytes);
    assert r[pos..pos + |bytes|] == bytes;
  }

  /** Two consecutive writes are one write of the concatenation. */
  lemma WriteAtConcat(c: seq<byte>, pos: nat, d1: seq<byte>, d2: seq<byte>)
    requires pos <= |c|
    ensures WriteAt(WriteAt(c, pos, d1), pos + |d1|, d2) == WriteAt(c, pos, d1 + d2)
  {
    var lhs := WriteAt(WriteAt(c, pos, d1), pos + |d1|, d2);
    var rhs := WriteAt(c, pos, d1 + d2);
    assert |lhs| == |rhs|;
    forall i | 0 <= i < |lhs| ensures lhs[i] == rhs[i] {
      if i < pos {
        assert lhs[i] == WriteAt(c, pos, d1)[i];
      }
    }
  }

  /** Writing the next `k` bytes of `data` extends what is already written. */
  lemma WriteAtExtend(c: seq<byte>, pos: nat, data: seq<byte>, done: nat, k: nat)
    requires pos <= |c| && done + k <= |data|
    ensures WriteAt(WriteAt(c, pos, data[..done]), pos + done, data[done..][..k]) == WriteAt(c, pos, data[..done + k])
    ensures pos + done + k <= |WriteAt(c, pos, data[..done + k])|
  {
    WriteAtConcat(c, pos, data[..done], data[done..][..k]);
    assert data[..done] + data[done..][..k] == data[..done + k];
  }

  /**
   * The invariant of the write loop: `done` bytes of `data` are written at
   * `origin` over the original contents c0, and what the loop still does
   * under `script` completes the transfer of the whole buffer under `io`.
   */
  ghost predicate FrameProgress(io: seq<WriteOutcome>, data: seq<byte>, c0: seq<byte>, origin: nat,
                                script: seq<WriteOutcome>, done: nat, content: seq<byte>)
  {
    && done <= |data|
    && origin <= |c0|
    && origin + done <= |content|
    && content == WriteAt(c0, origin, data[..done])
    && Transferred(io, |data|) == Shifted(Transferred(script, |data| - done), done)
  }

  /** One call of `write_at` in the write loop, in terms of FrameProgress. */
  lemma FrameStep(io: seq<WriteOutcome>, data: seq<byte>, c0: seq<byte>, origin: nat,
                  script: seq<WriteOutcome>, done: nat, content: seq<byte>, o: WriteOutcome, next: seq<WriteOutcome>, content': seq<byte>)
    requires FrameProgress(io, data, c0, origin, script, done, content) && done < |data|
    requires o == NextOutcome(script, |data| - done) && next == NextScript(script)
    requires content' == if o.Wrote? && o.n > 0 then WriteAt(content, origin + done, data[done..][..o.n]) else content
    ensures o.Interrupted? ==> script != [] && FrameProgress(io, data, c0, origin, next, done, content')
    ensures o.Failed? ==> Transferred(io, |data|) == Transfer(done, true, next)
    ensures o.Wrote? && o.n == 0 ==> Transferred(io, |data|) == Transfer(done, false, next)
    ensures o.Wrote? && o.n > 0 ==> FrameProgress(io, data, c0, origin, next, done + o.n, content')
  {
    if o.Wrote? && o.n > 0 {
      FrameAdvance(io, data, c0, origin, script, done, content, o.n, next);
    } else {
      TransferredStep(script, |data| - done);
    }
  }

  /** Once the whole buffer is written, the loop has done what Transferred says. */
  lemma FrameDone(io: seq<WriteOutcome>, data: seq<byte>, c0: seq<byte>, origin: nat,
                  script: seq<WriteOutcome>, content: seq<byte>)
    requires FrameProgress(io, data, c0, origin, script, |data|, content)
    ensures Transferred(io, |data|) == Transfer(|data|, false, script)
  {
  }

  /** A call of `write_at` that wrote n > 0 bytes advances the write loop by n. */
  lemma FrameAdvance(io: seq<WriteOutcome>, data: seq<byte>, c0: seq<byte>, origin: nat,
                     script: seq<WriteOutcome>, done: nat, content: seq<byte>, n: nat, next: seq<WriteOutcome>)
    requires FrameProgress(io, data, c0, origin, script, done, content)
    requires 0 < n <= |data| - done && NextOutcome(script, |data| - done) == Wrote(n) && next == NextScript(script)
    ensures FrameProgress(io, data, c0, origin, next, done + n, WriteAt(content, origin + done, data[done..][..n]))
  {
    TransferredStep(script, |data| - done);
    WriteAtExtend(c0, origin, data, done, n);
  }

  /** Two sequences that agree below n agree on every slice below n. */
  lemma SliceOfCommonPrefix(a: seq<byte>, b: seq<byte>, n: nat, lo: nat, hi: nat)
    requires n <= |a| && n <= |b| && a[..n] == b[..n]
    requires lo <= hi <= n
    ensures a[lo..hi] == b[lo..hi]
  {
    assert a[lo..hi] == a[..n][lo..hi];
    assert b[lo..hi] == b[..n][lo..hi];
  }

  /** a and b agree on their first n bytes. */
  predicate SamePrefix(a: seq<byte>, b: seq<byte>, n: nat) {
    n <= |a| && n <= |b| && a[..n] == b[..n]
  }

  lemma SamePrefixTrans(a: seq<byte>, b: seq<byte>, c: seq<byte>, m: nat, n: nat)
    requires SamePrefix(a, b, m) && SamePrefix(b, c, n) && m <= n
    ensures SamePrefix(a, c, m)
  {
    assert a[..m] == b[..n][..m];
    assert c[..m] == c[..n][..m];
  }

  /** The bytes handle h covers are the frame of e. */
  predicate FrameAt(content: seq<byte>, h: EntryHandle, e: Entry) {
    Encodable(e) && h.offset + h.length <= |content| && content[h.offset..h.offset + h.length] == Encode(e)
  }

  /** A segment's bytes and write offset after appending, what the append returned, and the script left over. */
  datatype Written<R> = Written(content: seq<byte>, offset: nat, r: Result<R>, rest: seq<WriteOutcome>)

  /**
   * What `write_entry` of e does to segment id holding the bytes content
   * with write offset offset: a record `encode_to_bytes` rejects panics and
   * changes nothing; otherwise the write loop runs as Transferred says, the
   * offset moves past every byte written, and a failure is returned only
   * after that.
   */
  function EntryWrite(id: FileId, content: seq<byte>, offset: nat, e: Entry, io: seq<WriteOutcome>): (w: Written<EntryHandle>)
    requires offset <= |content|
    ensures offset <= w.offset <= |w.content|
    ensures w.r.Ok? ==> w.r.value == EntryHandle(id, offset, w.offset - offset)
  {
    if !Encodable(e) then Written(content, offset, Err(Panic), io)
    else
      var t := Transferred(io, |Encode(e)|);
      Written(WriteAt(content, offset, Encode(e)[..t.count]), offset + t.count,
              if t.failed then Err(IoError) else Ok(EntryHandle(id, offset, t.count)), t.rest)
  }

  /** An append keeps the bytes below the old offset; only a record that encodes is appended. */
  lemma EntryWriteKeeps(id: FileId, content: seq<byte>, offset: nat, e: Entry, io: seq<WriteOutcome>)
    requires offset <= |content|
    ensures var w := EntryWrite(id, content, offset, e, io);
      SamePrefix(content, w.content, offset) && (w.r.Ok? ==> Encodable(e))
  {
    if Encodable(e) {
      var t := Transferred(io, |Encode(e)|);
      WriteAtContents(content, offset, Encode(e)[..t.count]);
    }
  }

  /**
   * When the operating system cooperates, a record that encodes is appended
   * whole: its handle covers exactly its frame and the script stays
   * cooperative.
   */
  lemma EntryWriteCooperative(id: FileId, content: seq<byte>, offset: nat, e: Entry, io: seq<WriteOutcome>)
    requires offset <= |content| && Cooperative(io) && Encodable(e)
    ensures var w := EntryWrite(id, content, offset, e, io);
      && w.r.Ok? && w.offset == offset + |Encode(e)| && Cooperative(w.rest)
      && FrameAt(w.content, w.r.value, e)
  {
    var data := Encode(e);
    TransferredCooperative(io, |data|);
    assert data[..|data|] == data;
    WriteAtContents(content, offset, data);
  }

  class LogFile {
    const id: FileId
    /** The bytes of the underlying file. */
    var content: seq<byte>
    /** The write position. */
    var offset: nat

    ghost predicate Valid()
      reads this
    {
      offset <= |content|
    }

    /** `LogFile::new`: the write offset starts at 0. */
    constructor (id: FileId, file: seq<byte>)
      ensures Valid()
      ensures this.id == id && content == file && offset == 0
    {
      this.id := id;
      content := file;
      offset := 0;
    }

    /** The operating system's `write_at` of `buf` at `pos`, driven by the script `io`. */
    method OsWriteAt(buf: seq<byte>, pos: nat, io: seq<WriteOutcome>) returns (o: WriteOutcome, rest: seq<WriteOutcome>)
      requires pos <= |content|
      modifies this`content
      ensures o == NextOutcome(io, |buf|) && rest == NextScript(io)
      ensures content == if o.Wrote? && o.n > 0 then WriteAt(old(content), pos, buf[..o.n]) else old(content)
    {
      o, rest := NextOutcome(io, |buf|), NextScript(io);
      if o.Wrote? && o.n > 0 {
        content := WriteAt(content, pos, buf[..o.n]);
      }
    }

    /**
     * The short-write loop of `write_entry`: write `data` at the write
     * offset, advancing the offset by every byte written, until all of it
     * is written, a write returns 0, or a write fails with an error other
     * than `Interrupted`.
     */
    method WriteFrame(data: seq<byte>, io: seq<WriteOutcome>) returns (failed: bool, rest: seq<WriteOutcome>)
      requires Valid()
      modifies this`content, this`offset
      ensures Valid()
      ensures var t := Transferred(io, |data|);
        && offset == old(offset) + t.count
        && content == WriteAt(old(content), old(offset), data[..t.count])
        && failed == t.failed
        && rest == t.rest
    {
      ghost var c0 := content;
      var origin := offset;
      var nwrite: nat := 0;
      rest := io;
      assert data[..0] == [];
      while nwrite < |data|
        invariant offset == origin + nwrite
        invariant FrameProgress(io, data, c0, origin, rest, nwrite, content)
        decreases |rest|, |data| - nwrite
      {
        ghost var script, before := rest, content;
        var o;
        o, rest := OsWriteAt(data[nwrite..], offset, rest);
        FrameStep(io, data, c0, origin, script, nwrite, before, o, rest, content);
        if o.Interrupted? {
          continue;
        } else if o.Failed? {
          return true, rest;
        }
        if o.n == 0 {
          break;
        }
        offset := offset + o.n;
        nwrite := nwrite + o.n;
      }
      if nwrite == |data| {
        FrameDone(io, data, c0, origin, rest, content);
      }
      failed := false;
    }

    /**
     * `write_entry`: append the frame of `e` at the write offset.  The
     * handle starts at the offset before the call and covers exactly the
     * bytes written, which are fewer than the frame when a write returned
     * 0.  On a failed write the offset has already moved past the bytes
     * written before the failure.
     */
    method WriteEntry(e: Entry, io: seq<WriteOutcome>) returns (r: Result<EntryHandle>, rest: seq<WriteOutcome>)
      requires Valid()
      modifies this
      ensures Valid()
      ensures !Encodable(e) ==> r == Err(Panic) && content == old(content) && offset == old(offset) && rest == io
      ensures Encodable(e) ==>
        var t := Transferred(io, |Encode(e)|);
        && offset == old(offset) + t.count
        && content == WriteAt(old(content), old(offset), Encode(e)[..t.count])
        && rest == t.rest
        && r == if t.failed then Err(IoError) else Ok(EntryHandle(id, old(offset), t.count))
      ensures Written(content, offset, r, rest) == EntryWrite(id, old(content), old(offset), e, io)
      ensures offset >= old(offset)
      ensures SamePrefix(old(content), content, old(offset))
      ensures Cooperative(io) && Encodable(e) ==> r.Ok? && r.value.length == |Encode(e)| && Cooperative(rest)
      ensures r.Ok? ==> r.value.fileId == id && r.value.offset == old(offset) && r.value.length == offset - old(offset)
      ensures r.Ok? && r.value.length == |Encode(e)| ==>
        FrameAt(content, r.value, e) && ReadEntry(r.value, false) == Ok(Canonical(e))
    {
      if !Encodable(e) {
        return Err(Panic), io;
      }
      var data := Encode(e);
      var origin := offset;
      var failed;
      failed, rest := WriteFrame(data, io);
      ghost var count := Transferred(io, |data|).count;
      WriteAtContents(old(content), origin, data[..count]);
      if Cooperative(io) {
        TransferredCooperative(io, |data|);
      }
      if failed {
        return Err(IoError), rest;
      }
      r := Ok(EntryHandle(id, origin, offset - origin));
      if count == |data| {
        assert data[..count] == data;
        DecodeEncode(e);
      }
    }

    /**
     * `read_entry`: read the bytes a handle covers and decode them (the
     * checksum is not verified).  A handle of another segment panics, an
     * error from the operating system's `read_at` is returned, and a short
     * read reaches a `todo!()`.
     */
    function ReadEntry(h: EntryHandle, readFails: bool): (r: Result<Entry>)
      reads this
      ensures h.fileId != id ==> r == Err(Panic)
      ensures r.Ok? ==> !readFails && h.offset + h.length <= |content|
      ensures r.Ok? ==> r == Decode(content[h.offset..h.offset + h.length])
    {
      ReadAt(id, content, h, readFails)
    }
  }

  /** What `read_entry` yields on segment id holding the bytes content. */
  function ReadAt(id: FileId, content: seq<byte>, h: EntryHandle, readFails: bool): Result<Entry> {
    if h.fileId != id then Err(Panic)
    else if readFails then Err(IoError)
    else if h.offset + h.length > |content| then Err(Panic)
    else Decode(content[h.offset..h.offset + h.length])
  }

  /** A read that stays below n sees only the first n bytes of the segment. */
  lemma ReadAtPrefix(id: FileId, a: seq<byte>, b: seq<byte>, n: nat, h: EntryHandle, readFails: bool)
    requires SamePrefix(a, b, n) && h.offset + h.length <= n
    ensures ReadAt(id, a, h, readFails) == ReadAt(id, b, h, readFails)
  {
    SliceOfCommonPrefix(a, b, n, h.offset, h.offset + h.length);
  }
}

=== FILE: model.dfy ===
/**
 * The entry codec of the segment files.  A logical record becomes the frame
 *
 *   crc(4) | ts(8) | keysz(4) | valsz(4) | key | op(1) | value
 *
 * with every integer big-endian.  The checksum is a constant zero placeholder
 * and is never verified on decoding.
 */
module Model {
  import opened Types
  import opened BigEndian

  /** The kind of a record; a Del record is a tombstone. */
  datatype OpType = Put | Del

  /** Size of the fixed header: crc, ts, keysz and valsz. */
  const HEADER_LEN: nat := 20

  /**
   * The bound on key and value lengths that `encode_to_bytes` asserts.
   * The source writes `2 ^ 32`, and `^` is exclusive or, so the bound is 34.
   */
  const KEY_VALUE_LIMIT: nat := ((2 as bv8) ^ (32 as bv8)) as nat

  /** The tag byte of an operation (`op as u8`). */
  function OpByte(op: OpType): (b: byte)
    ensures b < 2
    ensures OpFromByte(b) == Ok(op)
  {
    match op
    case Put => 0
    case Del => 1
  }

  /** `OpType::from`: 0 is Put, 1 is Del, anything else panics. */
  function OpFromByte(b: byte): (r: Result<OpType>)
    ensures r.Ok? <==> b < 2
    ensures r.Err? ==> r.fault == Panic
  {
    if b == 0 then Ok(Put) else if b == 1 then Ok(Del) else Err(Panic)
  }

  /**
   * A record, owned (`OwnedEntry`) or borrowed (`RefEntry`): both carry the
   * same four fields.
   */
  datatype Entry = Entry(op: OpType, key: seq<byte>, value: Option<seq<byte>>, ts: Option<u64>)

  /** Number of value bytes a record carries (0 when the value is absent). */
  function ValueLen(e: Entry): nat {
    if e.value.Some? then |e.value.value| else 0
  }

  /** The value bytes a record carries (empty when the value is absent). */
  function ValueBytes(e: Entry): (v: seq<byte>)
    ensures |v| == ValueLen(e)
  {
    if e.value.Some? then e.value.value else []
  }

  /** The timestamp written to the frame: an absent one is written as 0. */
  function TsOrZero(e: Entry): u64 {
    if e.ts.Some? then e.ts.value else 0
  }

  /** The three assertions `encode_to_bytes` makes before it writes anything. */
  predicate Encodable(e: Entry) {
    && |e.key| < KEY_VALUE_LIMIT
    && ValueLen(e) < KEY_VALUE_LIMIT
    && (e.op.Del? ==> e.value.None?)
  }

  lemma Pow256Widths()
    ensures Pow256(4) == U32_LIMIT
    ensures Pow256(8) == 0x1_0000_0000_0000_0000
  {
    assert Pow256(2) == 0x1_0000;
    assert Pow256(4) == 0x1_0000_0000;
  }

  /** `encode_to_bytes`: the frame of a record. */
  function Encode(e: Entry): (r: seq<byte>)
    requires Encodable(e)
    ensures |r| == HEADER_LEN + |e.key| + 1 + ValueLen(e)
    ensures r[..4] == [0, 0, 0, 0]
    ensures r[4..12] == ToBE(TsOrZero(e), 8)
    ensures r[12..16] == ToBE(|e.key|, 4)
    ensures r[16..20] == ToBE(ValueLen(e), 4)
    ensures r[20..20 + |e.key|] == e.key
    ensures r[20 + |e.key|] == OpByte(e.op)
    ensures r[21 + |e.key|..] == ValueBytes(e)
  {
    Pow256Widths();
    var crc: seq<byte> := [0, 0, 0, 0];
    var ts := ToBE(TsOrZero(e), 8);
    var keysz := ToBE(|e.key|, 4);
    var valsz := ToBE(ValueLen(e), 4);
    var header := crc + ts + keysz + valsz;
    assert header[..4] == crc && header[4..12] == ts && header[12..16] == keysz && header[16..20] == valsz;
    var r := header + e.key + [OpByte(e.op)] + ValueBytes(e);
    assert r[..20] == header;
    assert r[20..20 + |e.key|] == e.key;
    assert r[21 + |e.key|..] == ValueBytes(e);
    r
  }

  /**
   * `decode_from_bytes`.  Every failure is a panic: the two length
   * assertions, an overflow of the u32 sum `20 + keysz + valsz + 1`, an op
   * byte other than 0 and 1, and a Del frame whose valsz is not 0.  A Put
   * takes every byte after the op byte as its value, whatever valsz says.
   */
  function Decode(b: seq<byte>): (r: Result<Entry>)
    ensures r.Err? ==> r.fault == Panic
    ensures r.Ok? ==> r.value.ts.Some? && (r.value.op.Del? <==> r.value.value.None?)
    ensures r.Ok? ==> |b| >= HEADER_LEN + |r.value.key| + 1 + ValueLen(r.value)
  {
    if |b| <= HEADER_LEN then Err(Panic)
    else
      Pow256Widths();
      var ts: u64 := FromBE(b[4..12]);
      var keysz := FromBE(b[12..16]);
      var valsz := FromBE(b[16..20]);
      if HEADER_LEN + keysz + valsz + 1 >= U32_LIMIT then Err(Panic)
      else if |b| < HEADER_LEN + keysz + valsz + 1 then Err(Panic)
      else
        var key := b[20..20 + keysz];
        match OpFromByte(b[20 + keysz])
        case Err(f) => Err(f)
        case Ok(Del) =>
          if valsz != 0 then Err(Panic) else Ok(Entry(Del, key, None, Some(ts)))
        case Ok(Put) => Ok(Entry(Put, key, Some(b[21 + keysz..]), Some(ts)))
  }

  /**
   * What decoding the frame of `e` yields: the timestamp becomes present
   * (0 when it was absent) and a Put's value becomes present (empty when
   * it was absent).
   */
  function Canonical(e: Entry): Entry {
    Entry(e.op, e.key, if e.op.Put? then Some(ValueBytes(e)) else None, Some(TsOrZero(e)))
  }

  /** The header fields of an encoded frame decode to what was written. */
  lemma HeaderOfEncode(e: Entry, b: seq<byte>)
    requires Encodable(e)
    requires |b| >= 20 && b[..20] == Encode(e)[..20]
    ensures FromBE(b[4..12]) == TsOrZero(e)
    ensures FromBE(b[12..16]) == |e.key|
    ensures FromBE(b[16..20]) == ValueLen(e)
  {
    Pow256Widths();
    var f := Encode(e);
    assert b[4..12] == f[4..12];
    assert b[12..16] == f[12..16];
    assert b[16..20] == f[16..20];
    FromToBE(TsOrZero(e), 8);
    FromToBE(|e.key|, 4);
    FromToBE(ValueLen(e), 4);
  }

  /**
   * Decoding the frame of `e` followed by any trailing bytes `t`: a Put
   * absorbs the trailing bytes into its value, a Del ignores them.
   * With `t == []` this is the round trip.
   */
  lemma DecodeEncodeTrailing(e: Entry, t: seq<byte>)
    requires Encodable(e)
    ensures Decode(Encode(e) + t) ==
              if e.op.Put? then Ok(Canonical(e).(value := Some(ValueBytes(e) + t)))
              else Ok(Canonical(e))
  {
    var f := Encode(e);
    var b := f + t;
    var k := |e.key|;
    assert b[..20] == f[..20];
    HeaderOfEncode(e, b);
    assert b[20..20 + k] == f[20..20 + k];
    assert b[20 + k] == f[20 + k];
    assert b[21 + k..] == f[21 + k..] + t;
  }

  /** Round trip: decoding an encoded record gives its canonical form. */
  lemma DecodeEncode(e: Entry)
    requires Encodable(e)
    ensures Decode(Encode(e)) == Ok(Canonical(e))
  {
    DecodeEncodeTrailing(e, []);
    assert Encode(e) + [] == Encode(e);
  }

  /**
   * A record survives the round trip unchanged exactly when it carries a
   * timestamp and, if it is a Put, a value.
   */
  lemma DecodeEncodeExact(e: Entry)
    requires Encodable(e)
    ensures Decode(Encode(e)) == Ok(e) <==> e.ts.Some? && (e.op.Put? ==> e.value.Some?)
  {
    DecodeEncode(e);
  }

  /**
   * Exactly which byte strings decode, and to what.  With keysz and valsz
   * read from bytes 12..16 and 16..20, a string decodes if and only if it
   * is longer than the header, the u32 sum `20 + keysz + valsz + 1` does
   * not overflow, the string holds that many bytes, and the op byte after
   * the key is 0 (Put) or is 1 (Del) with valsz 0.  The key is the keysz
   * bytes after the header, the timestamp is bytes 4..12, and a Put's value
   * is everything after the op byte.
   */
  lemma DecodeCases(b: seq<byte>)
    ensures |b| <= HEADER_LEN ==> Decode(b) == Err(Panic)
    ensures |b| > HEADER_LEN ==>
      var keysz, valsz := FromBE(b[12..16]), FromBE(b[16..20]);
      && (Decode(b).Ok? <==>
        && HEADER_LEN + keysz + valsz + 1 < U32_LIMIT
        && HEADER_LEN + keysz + valsz + 1 <= |b|
        && (b[20 + keysz] == 0 || (b[20 + keysz] == 1 && valsz == 0)))
      && (Decode(b).Ok? ==>
        && Decode(b).value.key == b[20..20 + keysz]
        && Decode(b).value.ts == Some(FromBE(b[4..12]))
        && (Decode(b).value.op == if b[20 + keysz] == 0 then Put else Del)
        && (Decode(b).value.value == if b[20 + keysz] == 0 then Some(b[21 + keysz..]) else None))
  {
  }

  /** Decoding ignores the four checksum bytes. */
  lemma DecodeIgnoresChecksum(b: seq<byte>, crc: seq<byte>)
    requires |b| >= 4 && |crc| == 4
    ensures Decode(crc + b[4..]) == Decode(b)
  {
    var c := crc + b[4..];
    assert |c| == |b|;
    if |b| > HEADER_LEN {
      assert c[4..12] == b[4..12];
      assert c[12..16] == b[12..16];
      assert c[16..20] == b[16..20];
      assert c[20..] == b[20..];
      var keysz := FromBE(b[12..16]);
      if 20 + keysz < |b| {
        assert c[20 + keysz] == b[20 + keysz];
        assert c[20..20 + keysz] == b[20..20 + keysz];
        assert c[21 + keysz..] == b[21 + keysz..];
      }
    }
  }

  /** Every strict prefix of a frame (a torn write) fails to decode. */
  lemma DecodeTornFrame(e: Entry, n: nat)
    requires Encodable(e) && n < |Encode(e)|
    ensures Decode(Encode(e)[..n]) == Err(Panic)
  {
    var b := Encode(e)[..n];
    if n > HEADER_LEN {
      assert b[..20] == Encode(e)[..20];
      HeaderOfEncode(e, b);
    }
  }
}

=== FILE: types.dfy ===
/** Machine integer types, Option, and the outcome of a fallible operation. */
module Types {

  /** An unsigned 8-bit value: one byte of a frame or of a segment file. */
  type byte = x: int | 0 <= x < 0x100

  /** Rust's u32 and u64. */
  type u32 = x: int | 0 <= x < 0x1_0000_0000
  type u64 = x: int | 0 <= x < 0x1_0000_0000_0000_0000

  const U32_LIMIT: nat := 0x1_0000_0000

  datatype Option<+T> = None | Some(value: T)

  /**
   * Why an operation did not produce a value.
   *   IoError - the operation returned the crate's `Err(DBError)`
   *             (an operating-system error that was propagated);
   *   Panic   - the Rust code aborts instead: a failed `assert!`, an
   *             `expect` on `None`, a `todo!()` or `OpType::from` on a
   *             byte other than 0 and 1.
   */
  datatype Fault = IoError | Panic

  datatype Result<+T> = Ok(value: T) | Err(fault: Fault)
}

=== FILE: versionset.dfy ===
/**
 * The version set: the allocator of segment file ids, and the records a
 * version and a version edit are made of.
 */
module Versions {
  import opened Types
  import opened DbFile

  const U64_MAX: u64 := 0xFFFF_FFFF_FFFF_FFFF

  /** The segments of one version: the mutable one, the immutable ones and the manifest. */
  datatype Version = Version(mutId: FileId, immIds: seq<FileId>, manifestId: FileId)

  /**
   * A change to a version.  Nothing applies an edit yet, so it is kept as
   * an inert record; `Default` is the value `VersionEdit::default()` builds.
   */
  datatype VersionEdit = VersionEdit(
    newMut: Option<FileId>,
    mutToImm: Option<FileId>,
    compactInputImm: Option<seq<FileId>>,
    compactOutputImm: Option<seq<FileId>>)

  const Default: VersionEdit := VersionEdit(None, None, None, None)

  /**
   * `VersionSet`: the next file id to hand out, the manifest id and the
   * current version.  The ghost set `issued` records every id handed out.
   */
  class VersionSet {
    var nextLogfileId: FileId
    var manifestFileId: FileId
    var current: Version
    ghost var issued: set<FileId>

    /** No id handed out is the invalid id or at or above the next id. */
    ghost predicate Valid()
      reads this
    {
      && INVALID_FILE_ID < nextLogfileId
      && forall id :: id in issued ==> INVALID_FILE_ID < id < nextLogfileId
    }

    /**
     * The set starts handing out ids just above the invalid id, with
     * manifest 0; how the current version is built is not part of this
     * model, so it is a parameter.
     */
    constructor (current: Version)
      ensures Valid() && issued == {}
      ensures nextLogfileId == INVALID_FILE_ID + 1 && manifestFileId == 0 && this.current == current
    {
      nextLogfileId := INVALID_FILE_ID + 1;
      manifestFileId := 0;
      this.current := current;
      issued := {};
    }

    /**
     * `new_logfile_id`: hand out the next id and move past it.  The id is
     * valid and was never handed out before; an increment past `u64::MAX`
     * panics.
     */
    method NewLogfileId() returns (r: Result<FileId>)
      requires Valid()
      modifies this`nextLogfileId, this`issued
      ensures Valid()
      ensures manifestFileId == old(manifestFileId) && current == old(current)
      ensures old(nextLogfileId) == U64_MAX ==> r == Err(Panic) && unchanged(this)
      ensures old(nextLogfileId) < U64_MAX ==>
        && r == Ok(old(nextLogfileId))
        && nextLogfileId == old(nextLogfileId) + 1
        && issued == old(issued) + {r.value}
      ensures r.Ok? ==> r.value != INVALID_FILE_ID && r.value !in old(issued)
    {
      if nextLogfileId == U64_MAX {
        return Err(Panic);
      }
      var last := nextLogfileId;
      nextLogfileId := nextLogfileId + 1;
      issued := issued + {last};
      r := Ok(last);
    }

    /** `recovery`: nothing is recovered yet; it succeeds and changes nothing. */
    method Recovery(saveManifest: bool) returns (r: Result<()>)
      ensures r == Ok(())
    {
      r := Ok(());
    }

    /** `log_and_apply`: the edit is not applied yet; it succeeds and changes nothing. */
    method LogAndApply(edit: VersionEdit) returns (r: Result<()>)
      ensures r == Ok(())
    {
      r := Ok(());
    }
  }
}

=== FILE: writebatch.dfy ===
/** A write batch: an ordered list of pending Put and Delete records. */
module Batch {
  import opened Types
  import opened Model

  /**
   * The shape of every record a batch holds: a Del has no value, a Put has
   * one, and the timestamp is Some(0).
   */
  predicate BatchEntry(e: Entry) {
    && (e.op.Del? <==> e.value.None?)
    && e.ts == Some(0)
  }

  class WriteBatch {
    var rep: seq<Entry>

    ghost predicate Valid()
      reads this
    {
      forall i :: 0 <= i < |rep| ==> BatchEntry(rep[i])
    }

    /** `WriteBatch::new`: an empty batch. */
    constructor ()
      ensures Valid() && rep == []
    {
      rep := [];
    }

    /** `put`: append one Put record with timestamp 0. */
    method Put(key: seq<byte>, value: seq<byte>)
      requires Valid()
      modifies this
      ensures Valid()
      ensures rep == old(rep) + [Entry(Model.Put, key, Some(value), Some(0))]
    {
      rep := rep + [Entry(Model.Put, key, Some(value), Some(0))];
    }

    /** `delete`: append one Del record (a tombstone) with timestamp 0. */
    method Delete(key: seq<byte>)
      requires Valid()
      modifies this
      ensures Valid()
      ensures rep == old(rep) + [Entry(Del, key, None, Some(0))]
    {
      rep := rep + [Entry(Del, key, None, Some(0))];
    }

    /**
     * `consume_by`: apply `f` to the records in order and collect the
     * outputs, stopping at the first error and returning it.
     */
    method ConsumeBy<O>(f: Entry -> Result<O>) returns (r: Result<seq<O>>)
      ensures r.Ok? ==> |r.value| == |rep| && forall i :: 0 <= i < |rep| ==> f(rep[i]) == Ok(r.value[i])
      ensures r.Err? ==>
        exists i :: 0 <= i < |rep| && f(rep[i]) == Err(r.fault) && forall j :: 0 <= j < i ==> f(rep[j]).Ok?
      ensures r.Ok? <==> forall i :: 0 <= i < |rep| ==> f(rep[i]).Ok?
    {
      var out: seq<O> := [];
      for i := 0 to |rep|
        invariant |out| == i
        invariant forall j :: 0 <= j < i ==> f(rep[j]) == Ok(out[j])
      {
        match f(rep[i])
        case Ok(o) => out := out + [o];
        case Err(e) => return Err(e);
      }
      r := Ok(out);
    }
  }
}
